=== FILE: README.md ===
# HiveTracks → BEEP synchronizer, modelled in Dafny

The synchronizer copies apiary inspection records from HiveTracks to BEEP. This project
models its deterministic core, after the JSON has been parsed:

- `load_mappings` fills in default rules for absent keys.
- `transform_records` turns each source record into a `(payload, source id,
  checklist id)` triple. It builds two tables (hive name → id, checklist name → id). It
  then fills the payload's `items` in four fixed steps: `field_map`, `enums`, stage flags,
  feeding rules. It also resolves hive ids, the checklist and its reminder, and
  normalises the date.
- The SQLite ledger of imported ids: `mark_imported` and `get_imported_ids`.
- The eligibility filter that uses the ledger.
- The upload loop, which ledgers successful posts.
- The paginated fetch of the source records.

How values are modelled:

- JSON values are a `Value` datatype (`json.dfy`). A dict keeps its insertion order.
- Python semantics are spelled out: truthiness, `==` (`True == 1`), hashing for dict
  keys (`Key`), `str()`/`repr()`, and `in` on strings, lists and dicts.
- Every Python exception the core can raise on remote data is a `Result` error:
  TypeError, KeyError, AttributeError, ValueError. An error in any record aborts the
  whole call, as in the source.
- `datetime.strptime` follows CPython's `_strptime` patterns for
  `%Y-%m-%dT%H:%M:%S.%fZ`. Calendar validity (month lengths, leap years) is a parameter
  `calendarOk`.

Modules:

| module | file | models |
|---|---|---|
| `Base` | base.dfy | `Option`, `Result`, Python error kinds |
| `Decimal` | decimal.dfy | `str(int)`, `int(digits)`, zero padding |
| `Json` | json.dfy | JSON values, truthiness, `==`, hashing, `str`, `in` |
| `Dates` | dates.dfy | `strptime`/`strftime` of the action date |
| `Mappings` | mappings.dfy | `load_mappings`, and the ruleset `transform_records` reads |
| `Lookup` | lookup.dfy | `hive_map`, `checklist_map`, `hive_ids`, checklist and reminder, `r["actionDate"]` |
| `Items` | items.dfy | the four loops that fill `items` |
| `Transform` | transform.dfy | `transform_records` |
| `TransformExample` | transform_example.dfy | a worked record through `transform_records` |
| `Ledger` | ledger.dfy | `mark_imported`, `get_imported_ids`, the filter, `upload_records` |
| `Fetch` | fetch.dfy | `get_hivetracks_records` |
| `Sync` | sync.dfy | one run end to end |

## Model

| member | source | states |
|---|---|---|
| `Mappings.SetDefault` | HiveTracks-BEEP-Sync.py:178-182 | `setdefault` adds the key; existing entries keep their values; an absent key gets the default |
| `Mappings.WithDefaults` | HiveTracks-BEEP-Sync.py:175-183 | the loaded document has its own keys plus the five default keys; every key of the document keeps its value; each absent default key gets its default |
| `Mappings.LoadMappings` | HiveTracks-BEEP-Sync.py:175-183 | the five in-place `setdefault` calls leave the document `WithDefaults` describes |
| `Mappings.StrEntries` | HiveTracks-BEEP-Sync.py:206 | the `field_map` entries are read exactly when every value is a string, keeping their order and their pairs |
| `Mappings.DecodeRuleset` | HiveTracks-BEEP-Sync.py:197-229 | the reads of `mappings.get(..., default)`: a missing key reads as its default (no field map, no enums, no feeding rules, stage labels from `inspectionBroodStages`, fallback `TBD`); a present `field_map` keeps its entries in order; a document with none of the five keys is the empty ruleset |
| `Mappings.EmptyDocumentRuleset` | HiveTracks-BEEP-Sync.py:197-229 | an empty mappings document means no rules, stage labels read from `inspectionBroodStages` and fallback checklist `TBD`; loading it changes nothing |
| `Mappings.DefaultsAgreeWithReader` | HiveTracks-BEEP-Sync.py:178-182 | the defaults `load_mappings` installs are those `transform_records` assumes for a missing key, so loading never changes the ruleset |
| `Lookup.LookupEntries` | HiveTracks-BEEP-Sync.py:195-196 | the comprehension succeeds exactly when no element lacks `.get` and no kept name is unhashable; every id in the table is truthy |
| `Lookup.BuildLookup` | HiveTracks-BEEP-Sync.py:195-196 | a response without the list key gives an empty table; a list gives the table `LookupEntries` builds from its elements (its keys and ids are stated by `LookupKeys` and `LookupLastWins`); every id in the table is truthy |
| `Lookup.LookupKeys` | HiveTracks-BEEP-Sync.py:195-196 | a name is in the table exactly when some element has that name with a truthy name and a truthy id |
| `Lookup.LookupLastWins` | HiveTracks-BEEP-Sync.py:195-196 | for a repeated name the table holds the id of the last element with that name |
| `Lookup.HiveKey` | HiveTracks-BEEP-Sync.py:238 | `h["name"]` fails exactly on a non-dict, a missing name or an unhashable name |
| `Lookup.HiveIds` | HiveTracks-BEEP-Sync.py:238 | the comprehension succeeds exactly when every hive's name can be looked up, and never yields more ids than hives |
| `Lookup.HiveIdsPicks` | HiveTracks-BEEP-Sync.py:237-238 | `hive_ids` is the ordered subsequence of the record's hives with a known name, each mapped to its id; every hive left out has an unknown name |
| `Lookup.ResolveHives` | HiveTracks-BEEP-Sync.py:238 | a record without `hives` has no hive ids; a list of hives gives `HiveIds` of that list (its content is stated by `HiveIdsPicks`) |
| `Lookup.Reminder` | HiveTracks-BEEP-Sync.py:245 | the reminder reads `Missing: <type>/<typeOther>` |
| `Lookup.ResolveChecklist` | HiveTracks-BEEP-Sync.py:241-245 | an unhashable record type raises TypeError; the only failure is TypeError, from an unhashable type or fallback name |
| `Lookup.ChecklistResolution` | HiveTracks-BEEP-Sync.py:240-245 | a known type gives its checklist and no reminder; an unknown type gives the fallback's checklist (or null) and the reminder; an unhashable fallback raises |
| `Lookup.ActionDate` | HiveTracks-BEEP-Sync.py:249 | a missing `actionDate` raises KeyError, a non-string one TypeError; a string is normalised; a result is always 20 characters ending in `Z` |
| `Dates.ParseStamp` | HiveTracks-BEEP-Sync.py:249 | the fields `strptime` reads lie within the ranges its pattern admits |
| `Dates.NormalizeDate` | HiveTracks-BEEP-Sync.py:249 | failure is always ValueError; a result is `YYYY-MM-DDTHH:MM:SSZ`-sized and ends in `Z` |
| `Dates.CanonicalTruncates` | HiveTracks-BEEP-Sync.py:247-249 | on text of the form `YYYY-MM-DDTHH:MM:SS.<1-6 digits>Z`, normalisation returns the same text with the dot and fraction removed, or ValueError when the date is not in the calendar |
| `DateExample.ExampleNormalization` | HiveTracks-BEEP-Sync.py:248-249 | `2024-05-11T12:34:56.789012Z` normalises to `2024-05-11T12:34:56Z` |
| `Decimal.NatToDecimalRoundTrip` | HiveTracks-BEEP-Sync.py:224 | reading back `str(n)` gives `n` |
| `Decimal.Pad2RoundTrip` | HiveTracks-BEEP-Sync.py:249 | zero-padding a two-digit field read by `strptime` gives back the same two digits |
| `Decimal.Pad4RoundTrip` | HiveTracks-BEEP-Sync.py:249 | zero-padding a four-digit year gives back the same four digits |
| `Json.ListMembershipIsEquality` | HiveTracks-BEEP-Sync.py:223 | a label is in a list exactly when it equals some element |
| `Items.ApplyWritesAt` | HiveTracks-BEEP-Sync.py:203-235 | after a series of dict writes, a key is present exactly when it was before or was written, and holds its last written value |
| `Items.ApplyWritesConcat` | HiveTracks-BEEP-Sync.py:203-235 | doing two series of writes in turn is the same as doing their concatenation |
| `Items.LaterWritesWin` | HiveTracks-BEEP-Sync.py:203-235 | a key written by a later series has the later series' value, whatever came before |
| `Items.EarlierWritesSurvive` | HiveTracks-BEEP-Sync.py:203-235 | a key the later series does not write keeps its earlier value |
| `Items.UpdateIdempotent` | HiveTracks-BEEP-Sync.py:231-235 | `items.update(s)` twice in a row equals once |
| `Items.FieldWrites` | HiveTracks-BEEP-Sync.py:206-208 | a `field_map` entry writes exactly when its field is present and not null, and writes that field's value |
| `Items.EnumStep` | HiveTracks-BEEP-Sync.py:211-215 | an enum entry raises only for an unhashable field value; it writes only when the value is a string key of the value map, and then writes that key's assignments |
| `Items.EnumWrites` | HiveTracks-BEEP-Sync.py:211-215 | the enum step fails (TypeError) exactly when some entry's field value is unhashable |
| `Items.EnumWritesSound` | HiveTracks-BEEP-Sync.py:211-215 | every enum write is an assignment of an entry whose field value is a key of its value map |
| `Items.EnumWritesComplete` | HiveTracks-BEEP-Sync.py:211-215 | every assignment of every entry whose field value is a key of its value map is written |
| `Items.StageValue` | HiveTracks-BEEP-Sync.py:221 | the stage value is the record's field when that is truthy, otherwise an empty list |
| `Items.StageWrites` | HiveTracks-BEEP-Sync.py:222-224 | the stage step fails (TypeError) exactly when there are flags and the stage value is a number or a boolean |
| `Items.StageWritesSound` | HiveTracks-BEEP-Sync.py:222-224 | every stage write sets `True` under `str(code)` of a flag whose label was found |
| `Items.StageWritesComplete` | HiveTracks-BEEP-Sync.py:222-224 | every flag whose label was found has its write |
| `Items.NoStagesNoFlags` | HiveTracks-BEEP-Sync.py:221-224 | a missing, null or otherwise falsy stage field sets no flag |
| `Items.FoodOther` | HiveTracks-BEEP-Sync.py:228 | the other-text is the record's `feedBeesFoodTypeOther` when that is truthy, and the empty string when it is missing or falsy |
| `Items.AnyContains` | HiveTracks-BEEP-Sync.py:232 | `any(...)` is true exactly when some listed text is in the other-text; it raises only when there is a text to test and the other-text is not a container |
| `Items.RuleMergesUpToThrice` | HiveTracks-BEEP-Sync.py:229-235 | a rule writes its `set` zero to three times in a row |
| `Items.RuleMergesThrice` | HiveTracks-BEEP-Sync.py:230-235 | a rule whose three tests all match merges its `set` three times |
| `Items.RuleWithoutMatchWritesNothing` | HiveTracks-BEEP-Sync.py:230-235 | a rule none of whose tests match writes nothing |
| `Items.RepeatedUpdate` | HiveTracks-BEEP-Sync.py:230-235 | merging the same `set` several times leaves what merging it once leaves |
| `Items.FeedingFailureAborts` | HiveTracks-BEEP-Sync.py:229-235 | a rule that raises aborts the whole feeding step, whatever rules follow |
| `Items.LastMatchingRuleWins` | HiveTracks-BEEP-Sync.py:229-235 | a code is decided by the last rule that writes it |
| `Items.LastWriteOfConcat` | HiveTracks-BEEP-Sync.py:203-235 | the last write of a concatenation is the second part's if it writes the key, else the first part's |
| `Items.ItemWrites` | HiveTracks-BEEP-Sync.py:205-235 | assembling items only ever raises TypeError |
| `Items.ItemsPrecedence` | HiveTracks-BEEP-Sync.py:205-235 | the overwrite order: feeding rules beat stage flags, stage flags beat enums, enums beat `field_map`; a code no step writes is absent |
| `Items.Update` | HiveTracks-BEEP-Sync.py:231 | the `items.update` loop performs the writes in order |
| `Items.ApplyFieldMap` | HiveTracks-BEEP-Sync.py:206-208 | loop 1 leaves the dict `FieldWrites` describes |
| `Items.ApplyEnums` | HiveTracks-BEEP-Sync.py:211-215 | loop 2 leaves the dict `EnumWrites` describes, or its error |
| `Items.ApplyStageFlags` | HiveTracks-BEEP-Sync.py:218-224 | loop 3 leaves the dict `StageWrites` describes, or its error |
| `Items.ApplyRule` | HiveTracks-BEEP-Sync.py:230-235 | one feeding rule's three tests and merges leave the dict `RuleWrites` describes |
| `Items.ApplyFeedingRules` | HiveTracks-BEEP-Sync.py:227-235 | loop 4 leaves the dict `FeedingWrites` describes, or its error |
| `Items.AssembleItems` | HiveTracks-BEEP-Sync.py:203-235 | the four in-place loops give the dict `Items` describes, or its error |
| `Transform.SourceId` | HiveTracks-BEEP-Sync.py:202 | a record is filed under `str` of its `id`, and under `None` when it has none |
| `Transform.TransformRecord` | HiveTracks-BEEP-Sync.py:202-261 | a record gives a triple exactly when its items, hive ids, checklist and date all resolve; otherwise the error of the first failing step, in the order items, hives, checklist, date; a triple carries the record's `str(id)`, `str(checklist_id)` of its own payload, the record's notes and the normalised `actionDate`, and its items, hive ids, checklist id and reminder are the ones `Items`, `ResolveHives` and `ResolveChecklist` give for the record |
| `Transform.Collect` | HiveTracks-BEEP-Sync.py:199-262 | a loop that stops at the first error gives one value per step, in order, exactly when no step fails |
| `Transform.TransformAllSucceeds` | HiveTracks-BEEP-Sync.py:195-262 | the call succeeds exactly when both lookup tables can be built and every record can be transformed with them |
| `Transform.CollectSingle` | HiveTracks-BEEP-Sync.py:199-262 | a loop of one successful step gives that step's value alone |
| `Transform.SingleRecord` | HiveTracks-BEEP-Sync.py:186-262 | a call on one record gives that record's triple alone |
| `TransformExample.DateOnlyRecord` | HiveTracks-BEEP-Sync.py:202-261 | a record carrying only `actionDate` `2024-05-11T12:34:56.789012Z`, with empty tables and an empty ruleset, gives no items, no hives, a null checklist with text `"None"`, reminder `Missing: None/None`, source id `"None"` and date `2024-05-11T12:34:56Z` |
| `TransformExample.DateOnlyItems` | HiveTracks-BEEP-Sync.py:203-235 | an empty ruleset writes no items |
| `TransformExample.DateOnlyChecklist` | HiveTracks-BEEP-Sync.py:240-245 | a record without a type, with no checklists known, gets a null checklist and the reminder `Missing: None/None` |
| `TransformExample.DateOnlyRecordTransforms` | HiveTracks-BEEP-Sync.py:186-262 | `transform_records` on that one record succeeds with exactly that one triple |
| `Transform.FirstFailureIsTheError` | HiveTracks-BEEP-Sync.py:201-261 | the first failing record's error is the call's error |
| `Transform.OneTriplePerRecord` | HiveTracks-BEEP-Sync.py:199-261 | one triple per input record, in order, whose second component is the record's `str(id)` |
| `Transform.BadDateAbortsAll` | HiveTracks-BEEP-Sync.py:247-249 | a missing, non-string or malformed `actionDate` in any record aborts the whole call with no partial output |
| `Transform.PayloadDateTruncates` | HiveTracks-BEEP-Sync.py:247-252 | the payload date is the source date without its fraction of a second |
| `Transform.UnknownChecklistIsNone` | HiveTracks-BEEP-Sync.py:240-261 | with neither the type nor the fallback known, the checklist is null, the triple's third component is `"None"`, and the reminder is set |
| `Transform.KnownChecklistHasNoReminder` | HiveTracks-BEEP-Sync.py:241-245 | a known type carries its own checklist id and no reminder |
| `Transform.TransformOne` | HiveTracks-BEEP-Sync.py:202-261 | one loop iteration, with items filled in place, gives `TransformRecord` |
| `Transform.TransformRecords` | HiveTracks-BEEP-Sync.py:186-262 | the tables and then the append loop give `TransformAll`: all triples, or the first error |
| `Ledger.InsertOrIgnore` | HiveTracks-BEEP-Sync.py:97-103 | an insert adds its id, leaves every existing row unchanged, and stores its row only for a new id |
| `Ledger.FirstWriteWins` | HiveTracks-BEEP-Sync.py:97-103 | after a series of inserts, a new id holds the row of its first insert |
| `Ledger.NotInsertedAbsent` | HiveTracks-BEEP-Sync.py:97-103 | an id no insert names is not added |
| `Ledger.ExistingRowsSurvive` | HiveTracks-BEEP-Sync.py:97-103 | a row already present survives any series of inserts unchanged |
| `Ledger.Ledger.constructor` | HiveTracks-BEEP-Sync.py:75-90 | opening the ledger keeps the rows already in the database, and a new file starts empty |
| `Ledger.Ledger.MarkImported` | HiveTracks-BEEP-Sync.py:97-103 | `mark_imported` performs `InsertOrIgnore` on the table, so the imported ids grow by exactly the record's id and an existing row is kept |
| `Ledger.Ledger.ImportedIds` | HiveTracks-BEEP-Sync.py:92-95 | `get_imported_ids` is exactly the set of ids with a row; `MarkImported` adds exactly its id to that set, and `Sync.RunOnce` filters on it |
| `Ledger.Eligible` | HiveTracks-BEEP-Sync.py:324 | the filter never returns more records than it was given |
| `Ledger.EligibleExactly` | HiveTracks-BEEP-Sync.py:324 | the filter keeps, in input order, exactly the records whose `str(id)` is not in the ledger |
| `Ledger.EligibleMembership` | HiveTracks-BEEP-Sync.py:324 | a record is kept exactly when its id is not ledgered |
| `Ledger.UploadRows` | HiveTracks-BEEP-Sync.py:276-288 | the upload loop writes at most one row per triple |
| `Ledger.UploadedStep` | HiveTracks-BEEP-Sync.py:276-288 | each triple adds its row exactly when its post succeeded |
| `Ledger.UploadedIds` | HiveTracks-BEEP-Sync.py:268-288 | after the loop the ledger has its old ids plus exactly the ids of successful posts; a failure neither adds its id nor stops a later success |
| `Ledger.UploadRecords` | HiveTracks-BEEP-Sync.py:265-289 | every payload is posted, in order, whatever earlier posts did; the ledger becomes `Uploaded` |
| `Fetch.FirstEmpty` | HiveTracks-BEEP-Sync.py:162-166 | the loop stops at the first empty page; every earlier page is non-empty |
| `Fetch.FetchRecords` | HiveTracks-BEEP-Sync.py:159-169 | the records are every page before the first empty one, concatenated; pages 0 to that one are requested, skipping `page * page_size` each |
| `Fetch.AllPagesFetched` | HiveTracks-BEEP-Sync.py:159-169 | with no empty page, every page is fetched |
| `Sync.NoReupload` | HiveTracks-BEEP-Sync.py:265-324 | after one run, a record whose post succeeded is never eligible again, and the ledger only grows |
| `Sync.FailedPostRetried` | HiveTracks-BEEP-Sync.py:276-324 | a record whose post failed, and whose id no successful post shares, is eligible again in the next run |
| `Sync.RunEffects` | HiveTracks-BEEP-Sync.py:265-324 | after one run the ledger's ids have grown, every successfully posted record is filtered out, and every failed one whose id no success shares is eligible again |
| `Sync.LoadRuleset` | HiveTracks-BEEP-Sync.py:326 | `load_mappings` and the reads of the loaded document give the ruleset of the document as given |
| `Sync.RunOnce` | HiveTracks-BEEP-Sync.py:322-340 | one run gives `transform_records`, with the ruleset of the mappings document, of the records whose id is not among `get_imported_ids`; when uploading, the new ledger is `Uploaded` with the posts' outcomes, the ids only grow, every record whose post succeeded is filtered out afterwards, and every failed one whose id no success shares is eligible again; a run that raises or does not upload leaves the ledger as it was |

## Left out

- HTTP: the logins, `get_beep_data`, `get_page` and the POST itself are not modelled. A
  page's contents and a post's success are inputs (`pages`, `outcomes`, `succeeds`).
  HTTP errors raised while fetching are not modelled.
- Fetch.FetchRecords: the server's answers are a finite `pages`, and every page past its
  end is empty (`PageAt`). A server that never answers an empty page makes the source's
  `while True` run forever; that case is not modelled.
- SQLite: connections, `CREATE TABLE`, commits, and the `created_at` column (a clock
  value) are not modelled. The table is an in-memory map. A failing database write is not
  modelled either; the source would catch it as a failed upload.
- File and JSON I/O: `load_json_file`, JSON parsing and the dry-run preview file are not
  modelled. JSON numbers with a fraction are not in `Value`.
- `time.sleep`, `tqdm`, logging and the environment are not modelled. None of them
  changes state.
- Of `main`, only lines 322-340 are modelled (`Sync.RunOnce`): the filter,
  `load_mappings` and the reads of the loaded document (`Sync.LoadRuleset`), the
  transformation, and the upload when it is asked for. Argument handling, the choice
  between files and APIs, the dry-run preview file, the printed summary and the exit
  status are not modelled. A dry run is a run with `upload` false.
- Mappings.DecodeRuleset: a mappings document of another shape gives None. Examples: a
  `field_map` value that is not a string, an `if_other_contains_any` that is not a list
  of strings, a `set` that is not a dict. Python does not always fail on these. A
  hashable `field_map` value that is not a string is skipped, because it is never a key
  of the record. A hashable non-string `stages_flags.field` reads nothing; a list or
  dict there raises TypeError in `r.get`. A string
  `if_other_contains_any` is iterated character by character. A `set` given as a list
  of pairs is merged by `dict.update`. Some other shapes raise only when reached. The
  model takes only well-shaped rulesets, so none of these cases is modelled.
- Sync.RunOnce and Sync.LoadRuleset require a mappings document that `DecodeRuleset`
  reads. A run on a document of another shape is not modelled (see the line above).
- The source records and the two reference responses are dicts in the model. Python
  would raise AttributeError on a non-dict.
- Calendar validity is the parameter `calendarOk`, not a reimplementation: month
  lengths, leap years, year 0 and second 60/61 are not modelled.
- `strftime` of a year below 1000 is not modelled, since it is platform dependent
  (`FormatStamp` pads to four digits). Non-ASCII digits, which `strptime` accepts, are
  not modelled.
- `repr` of a string escapes only ASCII control characters. Python also escapes
  non-printable Unicode characters; that is not modelled.
- The key order of the `items` dict and of the payload is not modelled. Key order does
  not change their content.
- Ledger.UploadRecords: its contract states the new ledger through `Uploaded`. What
  that means is proved in `UploadedIds`, `FirstWriteWins` and `ExistingRowsSurvive`.

=== FILE: base.dfy ===
/** Failure-carrying values shared by every module of the model. */
module Base {

  datatype Option<+T> = None | Some(value: T)

  /** The Python exceptions the synchronizer's core can raise on the data it is given. */
  datatype PyError =
    | TypeError       // unhashable key, iteration over a scalar, subscript of a non-dict
    | KeyError        // `h["name"]` or `r["actionDate"]` on a dict without that key
    | AttributeError  // `.get` on a value that is not a dict
    | ValueError      // `datetime.strptime` rejects the text

  /** The outcome of a Python call: its value, or the exception that propagates out of it. */
  datatype Result<+T> = Ok(value: T) | Err(error: PyError) {
    predicate IsFailure() { Err? }

    function PropagateFailure<U>(): Result<U>
      requires Err?
    {
      Err(error)
    }

    function Extract(): T
      requires Ok?
    {
      value
    }
  }
}

=== FILE: dates.dfy ===
/** The date step of the transformation: `datetime.strptime(text, "%Y-%m-%dT%H:%M:%S.%fZ")`
    followed by `.strftime("%Y-%m-%dT%H:%M:%SZ")`. */
module Dates {
  import opened Base
  import opened Decimal

  /** The fields `strptime` reads. */
  datatype Stamp = Stamp(year: nat, month: nat, day: nat, hour: nat, minute: nat, second: nat, fraction: string)

  /** The ranges the pattern itself admits; whether the date exists in the calendar is
      a separate question (see `NormalizeDate`). */
  predicate InPatternRange(st: Stamp)
  {
    && st.year < 10000
    && 1 <= st.month <= 12
    && 1 <= st.day <= 31
    && st.hour <= 23
    && st.minute <= 59
    && st.second <= 61
    && 1 <= |st.fraction| <= 6 && AllDigits(st.fraction)
  }

  /** Index of the first character at or after `i` that is one of `seps`, or |s|. */
  function NextSep(s: string, i: nat, seps: set<char>): (j: nat)
    requires i <= |s|
    ensures i <= j <= |s|
    ensures j < |s| ==> s[j] in seps
    ensures forall k | i <= k < j :: s[k] !in seps
    decreases |s| - i
  {
    if i == |s| || s[i] in seps then i else NextSep(s, i + 1, seps)
  }

  /** The texts each directive's regular expression accepts, as CPython's `_strptime`
      spells them: `%Y` four digits; `%m` `1[0-2]|0[1-9]|[1-9]`; `%d`
      `3[01]|[12]\d|0[1-9]|[1-9]| [1-9]`; `%H` `2[0-3]|[01]\d|\d`; `%M` `[0-5]\d|\d`;
      `%S` `6[01]|[0-5]\d|\d`; `%f` one to six digits. */
  predicate OneOrTwoDigits(t: string) { (|t| == 1 || |t| == 2) && AllDigits(t) }

  predicate YearToken(t: string) { |t| == 4 && AllDigits(t) }

  predicate MonthToken(t: string) { OneOrTwoDigits(t) && 1 <= DigitsValue(t) <= 12 }

  predicate DayToken(t: string)
  {
    (OneOrTwoDigits(t) && 1 <= DigitsValue(t) <= 31) || (|t| == 2 && t[0] == ' ' && '1' <= t[1] <= '9')
  }

  predicate HourToken(t: string) { OneOrTwoDigits(t) && DigitsValue(t) <= 23 }

  predicate MinuteToken(t: string) { OneOrTwoDigits(t) && DigitsValue(t) <= 59 }

  predicate SecondToken(t: string) { OneOrTwoDigits(t) && DigitsValue(t) <= 61 }

  predicate FractionToken(t: string) { 1 <= |t| <= 6 && AllDigits(t) }

  /** The literal `T` and `Z` of the format match either case: `_strptime` compiles its
      pattern with IGNORECASE. */
  const TSeps: set<char> := {'T', 't'}
  const ZSeps: set<char> := {'Z', 'z'}

  /** A day written with a leading space (`" 7"`) reads as its digit. */
  lemma DayTokenRange(t: string)
    requires DayToken(t)
    ensures 1 <= DigitsValue(t) <= 31
  {
    if t[0] == ' ' {
      assert t[..1][..0] == [];
      assert DigitsValue(t[..1]) == 0;
    }
  }

  /** `strptime(s, "%Y-%m-%dT%H:%M:%S.%fZ")` up to the calendar check: the fields, or
      None where Python raises ValueError ("does not match format" or "unconverted data
      remains"). Each numeric field runs up to its separator, which its digits cannot
      contain, so the regular expression's split is the one found here. */
  function ParseStamp(s: string): (r: Option<Stamp>)
    ensures r.Some? ==> InPatternRange(r.value)
  {
    if |s| < 5 || !YearToken(s[..4]) || s[4] != '-' then None
    else
      var mEnd := NextSep(s, 5, {'-'});
      if mEnd == |s| || !MonthToken(s[5..mEnd]) then None
      else
        var dEnd := NextSep(s, mEnd + 1, TSeps);
        if dEnd == |s| || !DayToken(s[mEnd + 1..dEnd]) then None
        else
          var hEnd := NextSep(s, dEnd + 1, {':'});
          if hEnd == |s| || !HourToken(s[dEnd + 1..hEnd]) then None
          else
            var minEnd := NextSep(s, hEnd + 1, {':'});
            if minEnd == |s| || !MinuteToken(s[hEnd + 1..minEnd]) then None
            else
              var sEnd := NextSep(s, minEnd + 1, {'.'});
              if sEnd == |s| || !SecondToken(s[minEnd + 1..sEnd]) then None
              else
                var fEnd := NextSep(s, sEnd + 1, ZSeps);
                if fEnd != |s| - 1 || !FractionToken(s[sEnd + 1..fEnd]) then None
                else
                  Pad4RoundTrip(s[..4]);
                  DayTokenRange(s[mEnd + 1..dEnd]);
                  Some(Stamp(DigitsValue(s[..4]), DigitsValue(s[5..mEnd]), DigitsValue(s[mEnd + 1..dEnd]),
                             DigitsValue(s[dEnd + 1..hEnd]), DigitsValue(s[hEnd + 1..minEnd]),
                             DigitsValue(s[minEnd + 1..sEnd]), s[sEnd + 1..fEnd]))
  }

  /** `strftime("%Y-%m-%dT%H:%M:%SZ")`: every field zero-padded, no fraction. */
  function FormatStamp(st: Stamp): string
    requires InPatternRange(st)
  {
    Pad4(st.year) + "-" + Pad2(st.month) + "-" + Pad2(st.day) + "T" +
    Pad2(st.hour) + ":" + Pad2(st.minute) + ":" + Pad2(st.second) + "Z"
  }

  /** The date step. `calendarOk` stands for the checks `datetime` makes when it builds the
      value (year at least 1, the day exists in that month and year, second below 60). */
  function NormalizeDate(s: string, calendarOk: Stamp -> bool): (r: Result<string>)
    ensures r.Err? ==> r.error == ValueError
    ensures r.Ok? ==> |r.value| == 20 && r.value[19] == 'Z'
  {
    match ParseStamp(s)
    case None => Err(ValueError)
    case Some(st) => if calendarOk(st) then Ok(FormatStamp(st)) else Err(ValueError)
  }

  /** The source's own fixed format, `YYYY-MM-DDTHH:MM:SS.ffffffZ`, assembled from its
      fields: a four-digit year, two-digit month, day, hour, minute and second within their
      ranges, and one to six digits of fraction. */
  predicate CanonicalFields(y: string, mo: string, d: string, h: string, mi: string, se: string, frac: string)
  {
    && YearToken(y)
    && |mo| == 2 && MonthToken(mo)
    && |d| == 2 && AllDigits(d) && 1 <= DigitsValue(d) <= 31
    && |h| == 2 && HourToken(h)
    && |mi| == 2 && MinuteToken(mi)
    && |se| == 2 && SecondToken(se)
    && FractionToken(frac)
  }

  function WithFraction(y: string, mo: string, d: string, h: string, mi: string, se: string, frac: string): string
  {
    y + "-" + mo + "-" + d + "T" + h + ":" + mi + ":" + se + "." + frac + "Z"
  }

  function WithoutFraction(y: string, mo: string, d: string, h: string, mi: string, se: string): string
  {
    y + "-" + mo + "-" + d + "T" + h + ":" + mi + ":" + se + "Z"
  }

  /** On the source's format, normalization is truncation: the same text with the dot and
      the fractional seconds removed, provided the date exists in the calendar. */
  lemma CanonicalTruncates(y: string, mo: string, d: string, h: string, mi: string, se: string, frac: string,
                           calendarOk: Stamp -> bool)
    requires CanonicalFields(y, mo, d, h, mi, se, frac)
    ensures var st := Stamp(DigitsValue(y), DigitsValue(mo), DigitsValue(d), DigitsValue(h),
                            DigitsValue(mi), DigitsValue(se), frac);
      && ParseStamp(WithFraction(y, mo, d, h, mi, se, frac)) == Some(st)
      && NormalizeDate(WithFraction(y, mo, d, h, mi, se, frac), calendarOk)
         == if calendarOk(st) then Ok(WithoutFraction(y, mo, d, h, mi, se)) else Err(ValueError)
  {
    CanonicalParses(y, mo, d, h, mi, se, frac);
    CanonicalFormats(y, mo, d, h, mi, se, frac);
  }

  lemma CanonicalParses(y: string, mo: string, d: string, h: string, mi: string, se: string, frac: string)
    requires CanonicalFields(y, mo, d, h, mi, se, frac)
    ensures ParseStamp(WithFraction(y, mo, d, h, mi, se, frac))
         == Some(Stamp(DigitsValue(y), DigitsValue(mo), DigitsValue(d), DigitsValue(h),
                       DigitsValue(mi), DigitsValue(se), frac))
  {
    var s := WithFraction(y, mo, d, h, mi, se, frac);
    CanonicalLayout(y, mo, d, h, mi, se, frac);
    assert NextSep(s, 5, {'-'}) == 7;
    assert NextSep(s, 8, TSeps) == 10;
    assert NextSep(s, 11, {':'}) == 13;
    assert NextSep(s, 14, {':'}) == 16;
    assert NextSep(s, 17, {'.'}) == 19;
    forall k | 20 <= k < |s| - 1 ensures s[k] !in ZSeps {
      assert s[k] == s[20..|s| - 1][k - 20];
    }
    assert NextSep(s, 20, ZSeps) == |s| - 1;
  }

  lemma CanonicalLayout(y: string, mo: string, d: string, h: string, mi: string, se: string, frac: string)
    requires CanonicalFields(y, mo, d, h, mi, se, frac)
    ensures var s := WithFraction(y, mo, d, h, mi, se, frac);
      && |s| == 21 + |frac|
      && s[..4] == y && s[4] == '-'
      && s[5..7] == mo && s[7] == '-'
      && s[8..10] == d && s[10] == 'T'
      && s[11..13] == h && s[13] == ':'
      && s[14..16] == mi && s[16] == ':'
      && s[17..19] == se && s[19] == '.'
      && s[20..|s| - 1] == frac && s[|s| - 1] == 'Z'
  {
    var s := WithFraction(y, mo, d, h, mi, se, frac);
    var date := y + "-" + mo + "-" + d;
    var time := h + ":" + mi + ":" + se;
    assert |date| == 10 && |time| == 8;
    assert s == date + "T" + time + "." + frac + "Z";
    assert date[..4] == y;
    assert date[5..7] == mo;
    assert date[8..10] == d;
    assert time[..2] == h;
    assert time[3..5] == mi;
    assert time[6..8] == se;
    assert s[..10] == date && s[11..19] == time;
    assert s[20..|s| - 1] == frac;
  }

  lemma CanonicalFormats(y: string, mo: string, d: string, h: string, mi: string, se: string, frac: string)
    requires CanonicalFields(y, mo, d, h, mi, se, frac)
    ensures var st := Stamp(DigitsValue(y), DigitsValue(mo), DigitsValue(d), DigitsValue(h),
                            DigitsValue(mi), DigitsValue(se), frac);
      InPatternRange(st) && FormatStamp(st) == WithoutFraction(y, mo, d, h, mi, se)
  {
    Pad4RoundTrip(y);
    Pad2RoundTrip(mo);
    Pad2RoundTrip(d);
    Pad2RoundTrip(h);
    Pad2RoundTrip(mi);
    Pad2RoundTrip(se);
  }
}

/** The worked example of the date step. */
module DateExample {
  import opened Base
  import opened Decimal
  import opened Dates

  /** `"2024-05-11T12:34:56.789012Z"` normalizes to `"2024-05-11T12:34:56Z"`. */
  lemma ExampleNormalization(calendarOk: Stamp -> bool)
    requires calendarOk(Stamp(2024, 5, 11, 12, 34, 56, "789012"))
    ensures NormalizeDate("2024-05-11T12:34:56.789012Z", calendarOk) == Ok("2024-05-11T12:34:56Z")
  {
    ExampleTexts();
    ExampleFields();
    CanonicalTruncates("2024", "05", "11", "12", "34", "56", "789012", calendarOk);
  }

  lemma ExampleTexts()
    ensures WithFraction("2024", "05", "11", "12", "34", "56", "789012") == "2024-05-11T12:34:56.789012Z"
    ensures WithoutFraction("2024", "05", "11", "12", "34", "56") == "2024-05-11T12:34:56Z"
  {
  }

  lemma ExampleFields()
    ensures CanonicalFields("2024", "05", "11", "12", "34", "56", "789012")
    ensures DigitsValue("2024") == 2024 && DigitsValue("05") == 5 && DigitsValue("11") == 11
    ensures DigitsValue("12") == 12 && DigitsValue("34") == 34 && DigitsValue("56") == 56
  {
    FourDigitsValue("2024");
    TwoDigitsValue("05");
    TwoDigitsValue("11");
    TwoDigitsValue("12");
    TwoDigitsValue("34");
    TwoDigitsValue("56");
  }
}

=== FILE: decimal.dfy ===
/** Decimal digit strings: Python's `str(int)` and `int(digits)`. */
module Decimal {

  predicate IsDigit(c: char) { '0' <= c <= '9' }

  predicate AllDigits(t: string) { forall k | 0 <= k < |t| :: IsDigit(t[k]) }

  function DigitChar(d: nat): (c: char)
    requires d < 10
    ensures IsDigit(c) && c as int - '0' as int == d
  {
    (d + '0' as int) as char
  }

  /** `int(t)` for a string of ASCII digits and spaces: a space counts as nothing, as
      `int(" 5")` strips it. */
  function DigitsValue(t: string): nat
  {
    if t == [] then 0
    else
      var last := t[|t| - 1];
      var d := if IsDigit(last) then last as int - '0' as int else 0;
      (if IsDigit(last) then 10 else 1) * DigitsValue(t[..|t| - 1]) + d
  }

  /** `str(n)` for a natural number: the shortest decimal numeral. */
  function NatToDecimal(n: nat): (t: string)
    ensures |t| >= 1 && AllDigits(t)
    ensures |t| > 1 ==> t[0] != '0'
  {
    if n < 10 then [DigitChar(n)] else NatToDecimal(n / 10) + [DigitChar(n % 10)]
  }

  /** `str(i)` for any Python int. */
  function IntToDecimal(i: int): string
  {
    if i < 0 then "-" + NatToDecimal(-i) else NatToDecimal(i)
  }

  /** `"%02d" % n` for 0 <= n < 100 (strftime's two-digit fields). */
  function Pad2(n: nat): (t: string)
    requires n < 100
    ensures |t| == 2 && AllDigits(t)
  {
    [DigitChar(n / 10), DigitChar(n % 10)]
  }

  /** `"%04d" % n` for 0 <= n < 10000. */
  function Pad4(n: nat): (t: string)
    requires n < 10000
    ensures |t| == 4 && AllDigits(t)
  {
    [DigitChar(n / 1000), DigitChar(n / 100 % 10), DigitChar(n / 10 % 10), DigitChar(n % 10)]
  }

  /** Reading back what `str` wrote gives the number again. */
  lemma {:induction false} NatToDecimalRoundTrip(n: nat)
    ensures DigitsValue(NatToDecimal(n)) == n
  {
    if n >= 10 {
      NatToDecimalRoundTrip(n / 10);
      var t := NatToDecimal(n);
      assert t[..|t| - 1] == NatToDecimal(n / 10);
    }
  }

  function DigitOf(c: char): (d: nat)
    requires IsDigit(c)
    ensures d < 10 && DigitChar(d) == c
  {
    c as int - '0' as int
  }

  /** The value of two digits. */
  lemma TwoDigitsValue(t: string)
    requires |t| == 2 && AllDigits(t)
    ensures DigitsValue(t) == 10 * DigitOf(t[0]) + DigitOf(t[1])
  {
    assert t[..1][..0] == [];
    assert DigitsValue(t[..1]) == DigitOf(t[0]);
  }

  /** The value of four digits. */
  lemma FourDigitsValue(t: string)
    requires |t| == 4 && AllDigits(t)
    ensures DigitsValue(t) == 1000 * DigitOf(t[0]) + 100 * DigitOf(t[1]) + 10 * DigitOf(t[2]) + DigitOf(t[3])
  {
    var d0, d1, d2, d3 := DigitOf(t[0]), DigitOf(t[1]), DigitOf(t[2]), DigitOf(t[3]);
    assert t[..1][..0] == [];
    assert t[..2][..1] == t[..1];
    assert t[..3][..2] == t[..2];
    assert DigitsValue(t[..1]) == d0;
    assert DigitsValue(t[..2]) == 10 * d0 + d1;
    assert DigitsValue(t[..3]) == 100 * d0 + 10 * d1 + d2;
  }

  /** Zero-padding a two-digit field reproduces the two digits it was read from. */
  lemma Pad2RoundTrip(t: string)
    requires |t| == 2 && AllDigits(t)
    ensures DigitsValue(t) < 100 && Pad2(DigitsValue(t)) == t
  {
    TwoDigitsValue(t);
    assert [DigitChar(DigitOf(t[0])), DigitChar(DigitOf(t[1]))] == t;
  }

  /** Zero-padding a four-digit field reproduces the four digits it was read from. */
  lemma Pad4RoundTrip(t: string)
    requires |t| == 4 && AllDigits(t)
    ensures DigitsValue(t) < 10000 && Pad4(DigitsValue(t)) == t
  {
    FourDigitsValue(t);
    var d0, d1, d2, d3 := DigitOf(t[0]), DigitOf(t[1]), DigitOf(t[2]), DigitOf(t[3]);
    var n := 1000 * d0 + 100 * d1 + 10 * d2 + d3;
    assert n % 10 == d3 && n / 10 == 100 * d0 + 10 * d1 + d2;
    assert n / 10 % 10 == d2 && n / 100 == 10 * d0 + d1;
    assert n / 100 % 10 == d1 && n / 1000 == d0;
    assert [DigitChar(d0), DigitChar(d1), DigitChar(d2), DigitChar(d3)] == t;
  }
}

=== FILE: fetch.dfy ===
/** `get_hivetracks_records`: the source records, fetched page after page until the
    first empty page. */
module Fetch {
  import opened Json

  /** What the server answers for each page number; a page past the end is empty. */
  function PageAt(pages: seq<seq<Record>>, page: nat): seq<Record>
  {
    if page < |pages| then pages[page] else []
  }

  /** The number of the first empty page. */
  function FirstEmpty(pages: seq<seq<Record>>): (n: nat)
    ensures n <= |pages|
    ensures PageAt(pages, n) == []
    ensures forall i | 0 <= i < n :: pages[i] != []
  {
    if pages == [] || pages[0] == [] then 0
    else
      var n := FirstEmpty(pages[1..]);
      assert forall i | 1 <= i < n + 1 :: pages[i] == pages[1..][i - 1];
      n + 1
  }

  /** The pages one after the other. */
  function Concat(pages: seq<seq<Record>>): seq<Record>
  {
    if pages == [] then [] else Concat(pages[..|pages| - 1]) + pages[|pages| - 1]
  }

  /** The fetch loop: asks for page 0, 1, 2, ... (skipping `page * pageSize` records each
      time) and extends the result with every page up to the first empty one, which it
      also asks for. */
  method FetchRecords(pages: seq<seq<Record>>, pageSize: nat) returns (records: seq<Record>, skips: seq<nat>)
    ensures records == Concat(pages[..FirstEmpty(pages)])
    ensures |skips| == FirstEmpty(pages) + 1
    ensures forall i | 0 <= i < |skips| :: skips[i] == i * pageSize
  {
    records := [];
    skips := [];
    var page := 0;
    while true
      invariant page <= FirstEmpty(pages)
      invariant records == Concat(pages[..page])
      invariant |skips| == page && forall i | 0 <= i < page :: skips[i] == i * pageSize
      decreases |pages| - page
    {
      skips := skips + [page * pageSize];
      var pageData := PageAt(pages, page);
      if pageData == [] {
        break;
      }
      assert page < FirstEmpty(pages);
      assert pages[..page + 1][..page] == pages[..page];
      records := records + pageData;
      page := page + 1;
    }
  }

  /** When no page is empty, every page is fetched. */
  lemma AllPagesFetched(pages: seq<seq<Record>>)
    requires forall i | 0 <= i < |pages| :: pages[i] != []
    ensures FirstEmpty(pages) == |pages|
    ensures Concat(pages[..FirstEmpty(pages)]) == Concat(pages)
  {
    assert pages[..|pages|] == pages;
  }
}

=== FILE: items.dfy ===
/** How `transform_records` fills a record's `items` dict. Each of its four steps is
    described by the list of writes it performs, in order; the dict is what those writes
    leave behind, and `AssembleItems` performs them in place as the source does. */
module Items {
  import opened Base
  import opened Json
  import opened Mappings

  /** One `items[code] = value`. */
  type Write = (string, Value)

  /** The dict after performing the writes in order on `m`. */
  function ApplyWrites(m: map<string, Value>, ws: seq<Write>): map<string, Value>
  {
    if ws == [] then m
    else ApplyWrites(m, ws[..|ws| - 1])[ws[|ws| - 1].0 := ws[|ws| - 1].1]
  }

  /** Some write of `ws` goes to `k`. */
  predicate Writes(ws: seq<Write>, k: string)
  {
    exists i | 0 <= i < |ws| :: ws[i].0 == k
  }

  /** The value of the last write of `ws` to `k`. */
  function LastWrite(ws: seq<Write>, k: string): (v: Value)
    requires Writes(ws, k)
    ensures exists i | 0 <= i < |ws| :: ws[i] == (k, v)
  {
    if ws[|ws| - 1].0 == k then ws[|ws| - 1].1
    else
      assert Writes(ws[..|ws| - 1], k) by {
        var i :| 0 <= i < |ws| && ws[i].0 == k;
        assert ws[..|ws| - 1][i] == ws[i];
      }
      LastWrite(ws[..|ws| - 1], k)
  }

  /** A dict update keeps every key, adds the written ones, and gives each written key
      the value of its last write. */
  lemma {:induction false} ApplyWritesAt(m: map<string, Value>, ws: seq<Write>, k: string)
    ensures k in ApplyWrites(m, ws) <==> k in m || Writes(ws, k)
    ensures Writes(ws, k) ==> ApplyWrites(m, ws)[k] == LastWrite(ws, k)
    ensures !Writes(ws, k) && k in m ==> ApplyWrites(m, ws)[k] == m[k]
  {
    if ws != [] {
      var init := ws[..|ws| - 1];
      ApplyWritesAt(m, init, k);
      if ws[|ws| - 1].0 != k {
        if Writes(ws, k) {
          var i :| 0 <= i < |ws| && ws[i].0 == k;
          assert init[i] == ws[i];
        }
        if Writes(init, k) {
          var i :| 0 <= i < |init| && init[i].0 == k;
          assert ws[i] == init[i];
        }
      }
    }
  }

  /** Performing two lists of writes one after the other is performing their concatenation. */
  lemma {:induction false} ApplyWritesConcat(m: map<string, Value>, a: seq<Write>, b: seq<Write>)
    ensures ApplyWrites(m, a + b) == ApplyWrites(ApplyWrites(m, a), b)
  {
    if b != [] {
      var init := b[..|b| - 1];
      assert (a + b)[..|a + b| - 1] == a + init;
      assert (a + b)[|a + b| - 1] == b[|b| - 1];
      ApplyWritesConcat(m, a, init);
    } else {
      assert a + b == a;
    }
  }

  /** A later list of writes overrides an earlier one: a key the later list writes ends up
      with the later list's value, whatever came before. */
  lemma LaterWritesWin(m: map<string, Value>, a: seq<Write>, b: seq<Write>, k: string)
    requires Writes(b, k)
    ensures k in ApplyWrites(m, a + b)
    ensures ApplyWrites(m, a + b)[k] == LastWrite(b, k)
  {
    ApplyWritesConcat(m, a, b);
    ApplyWritesAt(ApplyWrites(m, a), b, k);
  }

  /** A key the later list does not write keeps the value the earlier writes gave it. */
  lemma EarlierWritesSurvive(m: map<string, Value>, a: seq<Write>, b: seq<Write>, k: string)
    requires !Writes(b, k)
    ensures k in ApplyWrites(m, a + b) <==> k in ApplyWrites(m, a)
    ensures k in ApplyWrites(m, a) ==> ApplyWrites(m, a + b)[k] == ApplyWrites(m, a)[k]
  {
    ApplyWritesConcat(m, a, b);
    ApplyWritesAt(ApplyWrites(m, a), b, k);
  }

  /** `items.update(s)` twice in a row leaves what a single update leaves. */
  lemma UpdateIdempotent(m: map<string, Value>, a: seq<Write>)
    ensures ApplyWrites(m, a + a) == ApplyWrites(m, a)
  {
    ApplyWritesConcat(m, a, a);
    var once := ApplyWrites(m, a);
    forall k | true
      ensures k in ApplyWrites(once, a) <==> k in once
      ensures k in once ==> ApplyWrites(once, a)[k] == once[k]
    {
      ApplyWritesAt(m, a, k);
      ApplyWritesAt(once, a, k);
    }
  }

  // ---------- 1) field_map ----------

  /** What one `field_map` entry (item code, source field) writes: the field's value, when
      the record has the field and it is not null. */
  function FieldStep(r: Record, entry: (string, string)): seq<Write>
  {
    if entry.1 in r && r[entry.1] != Null then [(entry.0, r[entry.1])] else []
  }

  /** The writes of the `field_map` step: exactly one per entry whose field is present and
      not null, carrying that field's value. */
  function FieldWrites(r: Record, fieldMap: seq<(string, string)>): (ws: seq<Write>)
    ensures forall w | w in ws :: exists i | 0 <= i < |fieldMap| ::
      fieldMap[i].1 in r && r[fieldMap[i].1] != Null && w == (fieldMap[i].0, r[fieldMap[i].1])
    ensures forall i | 0 <= i < |fieldMap| && fieldMap[i].1 in r && r[fieldMap[i].1] != Null ::
      (fieldMap[i].0, r[fieldMap[i].1]) in ws
  {
    if fieldMap == [] then []
    else
      var init := fieldMap[..|fieldMap| - 1];
      assert forall i | 0 <= i < |init| :: init[i] == fieldMap[i];
      FieldWrites(r, init) + FieldStep(r, fieldMap[|fieldMap| - 1])
  }

  // ---------- 2) enums ----------

  /** The record's value for an `enums` entry is a key of the entry's value map; only a
      string can be one. */
  predicate EnumHit(r: Record, entry: (string, seq<(string, seq<(string, Value)>)>))
  {
    Get(r, entry.0).Str? && FieldGet(entry.1, Get(r, entry.0).text).Some?
  }

  /** The assignments `value_map[ht_val]` of an entry the record hits. */
  function EnumAssigns(r: Record, entry: (string, seq<(string, seq<(string, Value)>)>)): seq<Write>
    requires EnumHit(r, entry)
  {
    FieldGet(entry.1, Get(r, entry.0).text).value
  }

  /** What one `enums` entry (source field, value map) writes: `ht_val in value_map`
      hashes the record's value (TypeError when it cannot be hashed); only a string can
      be one of the map's keys, and then its assignments are written in order. */
  function EnumStep(r: Record, entry: (string, seq<(string, seq<(string, Value)>)>)): (res: Result<seq<Write>>)
    ensures res.Err? <==> KeyOf(Get(r, entry.0)).None?
    ensures res.Err? ==> res.error == TypeError
    ensures res.Ok? && res.value != [] ==>
      Get(r, entry.0).Str? && FieldGet(entry.1, Get(r, entry.0).text) == Some(res.value)
    ensures Get(r, entry.0).Str? && FieldGet(entry.1, Get(r, entry.0).text).Some? ==>
      res == Ok(FieldGet(entry.1, Get(r, entry.0).text).value)
  {
    var v := Get(r, entry.0);
    if KeyOf(v).None? then Err(TypeError)
    else if v.Str? && FieldGet(entry.1, v.text).Some? then Ok(FieldGet(entry.1, v.text).value)
    else Ok([])
  }

  /** The writes of the `enums` step; it fails exactly when some entry's step fails. */
  function EnumWrites(r: Record, enums: seq<(string, seq<(string, seq<(string, Value)>)>)>): (res: Result<seq<Write>>)
    ensures res.Ok? <==> forall i | 0 <= i < |enums| :: EnumStep(r, enums[i]).Ok?
    ensures res.Err? ==> res.error == TypeError
  {
    if enums == [] then Ok([])
    else
      var init := enums[..|enums| - 1];
      assert forall i | 0 <= i < |init| :: init[i] == enums[i];
      var prev :- EnumWrites(r, init);
      var step :- EnumStep(r, enums[|enums| - 1]);
      Ok(prev + step)
  }

  /** Every enum write is an assignment of an entry whose field value is a key of its
      value map. */
  lemma {:induction false} EnumWritesSound(r: Record, enums: seq<(string, seq<(string, seq<(string, Value)>)>)>)
    requires EnumWrites(r, enums).Ok?
    ensures forall w | w in EnumWrites(r, enums).value ::
      exists i | 0 <= i < |enums| :: EnumHit(r, enums[i]) && w in EnumAssigns(r, enums[i])
  {
    if enums != [] {
      var init := enums[..|enums| - 1];
      var last := enums[|enums| - 1];
      EnumWritesSound(r, init);
      var prev := EnumWrites(r, init).value;
      var step := EnumStep(r, last).value;
      var all := EnumWrites(r, enums).value;
      assert all == prev + step;
      forall w | w in all
        ensures exists i | 0 <= i < |enums| :: EnumHit(r, enums[i]) && w in EnumAssigns(r, enums[i])
      {
        if w in prev {
          var i :| 0 <= i < |init| && EnumHit(r, init[i]) && w in EnumAssigns(r, init[i]);
          assert enums[i] == init[i];
        } else {
          assert w in step;
          assert EnumHit(r, last) && step == EnumAssigns(r, last);
        }
      }
    }
  }

  /** Every assignment of every entry the record hits is among the enum writes. */
  lemma {:induction false} EnumWritesComplete(r: Record, enums: seq<(string, seq<(string, seq<(string, Value)>)>)>)
    requires EnumWrites(r, enums).Ok?
    ensures forall i, w | 0 <= i < |enums| && EnumHit(r, enums[i]) && w in EnumAssigns(r, enums[i]) ::
      w in EnumWrites(r, enums).value
  {
    if enums != [] {
      var init := enums[..|enums| - 1];
      var last := enums[|enums| - 1];
      EnumWritesComplete(r, init);
      var prev := EnumWrites(r, init).value;
      var step := EnumStep(r, last).value;
      var all := EnumWrites(r, enums).value;
      assert all == prev + step;
      forall i, w | 0 <= i < |enums| && EnumHit(r, enums[i]) && w in EnumAssigns(r, enums[i])
        ensures w in all
      {
        if i < |init| {
          assert init[i] == enums[i];
          assert w in prev;
        } else {
          assert step == EnumAssigns(r, last);
        }
      }
    }
  }

  // ---------- 3) stage flags ----------

  /** `r.get(field, []) or []`: the stage field, or an empty list when it is missing or falsy. */
  function StageValue(r: Record, field: string): (v: Value)
    ensures Truthy(v) ==> field in r && v == r[field]
    ensures Truthy(GetOr(r, field, Null)) ==> v == r[field]
    ensures !Truthy(GetOr(r, field, Null)) ==> v == List([])
  {
    var v := GetOr(r, field, List([]));
    if Truthy(v) then v else List([])
  }

  /** What one flag (label, item code) writes: `True` under `str(code)` when the label is
      in the stages value; `in` on a number or a boolean raises TypeError. */
  function StageStep(stages: Value, flag: (string, Value)): (res: Result<seq<Write>>)
    ensures res.Err? <==> ContainsStr(flag.0, stages).Err?
    ensures res.Ok? ==> res.value == (if ContainsStr(flag.0, stages).value then [(PyStr(flag.1), Bool(true))] else [])
  {
    var found :- ContainsStr(flag.0, stages);
    Ok(if found then [(PyStr(flag.1), Bool(true))] else [])
  }

  /** The writes of the stage-flag step. Testing a label fails only on a stages value that
      is not a container, so the step fails exactly when there is a label to test and the
      value is a number or a boolean. */
  function StageWrites(stages: Value, flags: seq<(string, Value)>): (res: Result<seq<Write>>)
    ensures res.Ok? <==> flags == [] || stages.Str? || stages.List? || stages.Obj?
    ensures res.Err? ==> res.error == TypeError
  {
    if flags == [] then Ok([])
    else
      var init := flags[..|flags| - 1];
      assert forall i | 0 <= i < |init| :: init[i] == flags[i];
      var prev :- StageWrites(stages, init);
      var step :- StageStep(stages, flags[|flags| - 1]);
      Ok(prev + step)
  }

  /** A label found in the stages value. */
  predicate Found(stages: Value, text: string)
  {
    ContainsStr(text, stages) == Ok(true)
  }

  /** Every stage write sets `True` under the code of a flag whose label was found. */
  lemma {:induction false} StageWritesSound(stages: Value, flags: seq<(string, Value)>)
    requires StageWrites(stages, flags).Ok?
    ensures forall w | w in StageWrites(stages, flags).value ::
      (w.1 == Bool(true) && exists i | 0 <= i < |flags| :: w.0 == PyStr(flags[i].1) && Found(stages, flags[i].0))
  {
    if flags != [] {
      var init := flags[..|flags| - 1];
      var last := flags[|flags| - 1];
      StageWritesSound(stages, init);
      var prev := StageWrites(stages, init).value;
      var step := StageStep(stages, last).value;
      var all := StageWrites(stages, flags).value;
      assert all == prev + step;
      forall w | w in all
        ensures w.1 == Bool(true)
        ensures exists i | 0 <= i < |flags| :: w.0 == PyStr(flags[i].1) && Found(stages, flags[i].0)
      {
        if w in prev {
          var i :| 0 <= i < |init| && w.0 == PyStr(init[i].1) && Found(stages, init[i].0);
          assert flags[i] == init[i];
        } else {
          assert w in step;
        }
      }
    }
  }

  /** Every flag whose label is found has its write. */
  lemma {:induction false} StageWritesComplete(stages: Value, flags: seq<(string, Value)>)
    requires StageWrites(stages, flags).Ok?
    ensures forall i | 0 <= i < |flags| && Found(stages, flags[i].0) ::
      (PyStr(flags[i].1), Bool(true)) in StageWrites(stages, flags).value
  {
    if flags != [] {
      var init := flags[..|flags| - 1];
      var last := flags[|flags| - 1];
      StageWritesComplete(stages, init);
      var prev := StageWrites(stages, init).value;
      var step := StageStep(stages, last).value;
      var all := StageWrites(stages, flags).value;
      assert all == prev + step;
      forall i | 0 <= i < |flags| && Found(stages, flags[i].0)
        ensures (PyStr(flags[i].1), Bool(true)) in all
      {
        if i < |init| {
          assert init[i] == flags[i];
          assert (PyStr(flags[i].1), Bool(true)) in prev;
        } else {
          assert (PyStr(flags[i].1), Bool(true)) in step;
        }
      }
    }
  }

  /** The stage writes for one more flag: those of the flags before it, then its own. */
  lemma StageWritesStep(stages: Value, flags: seq<(string, Value)>, i: nat)
    requires i < |flags| && StageWrites(stages, flags[..i]).Ok? && StageStep(stages, flags[i]).Ok?
    ensures StageWrites(stages, flags[..i + 1])
      == Ok(StageWrites(stages, flags[..i]).value + StageStep(stages, flags[i]).value)
  {
    assert flags[..i + 1][..i] == flags[..i];
  }

  /** A record whose stage field is missing, null or otherwise falsy gets no stage flag. */
  lemma {:induction false} NoStagesNoFlags(r: Record, field: string, flags: seq<(string, Value)>)
    requires !Truthy(GetOr(r, field, Null))
    ensures StageWrites(StageValue(r, field), flags) == Ok([])
  {
    if flags != [] {
      var stages := StageValue(r, field);
      assert stages == List([]);
      var init := flags[..|flags| - 1];
      NoStagesNoFlags(r, field, init);
      assert ContainsStr(flags[|flags| - 1].0, stages) == Ok(false);
      assert StageStep(stages, flags[|flags| - 1]) == Ok([]);
      assert StageWrites(stages, init) == Ok([]);
      var empty: seq<Write> := [];
      assert [] + empty == empty;
      assert StageWrites(stages, flags) == Ok(empty);
    }
  }

  // ---------- 4) feeding rules ----------

  /** `r.get("feedBeesFoodTypeOther") or ""`. */
  function FoodOther(r: Record): (v: Value)
    ensures Truthy(Get(r, "feedBeesFoodTypeOther")) ==> v == r["feedBeesFoodTypeOther"]
    ensures !Truthy(Get(r, "feedBeesFoodTypeOther")) ==> v == Str("")
  {
    var v := Get(r, "feedBeesFoodTypeOther");
    if Truthy(v) then v else Str("")
  }

  /** `any(x in other for x in xs)`: stops at the first hit; the first test raises when
      `other` is not a container. */
  function AnyContains(xs: seq<string>, other: Value): (res: Result<bool>)
    ensures res.Err? <==> xs != [] && !(other.Str? || other.List? || other.Obj?)
    ensures res.Ok? ==> (res.value <==> exists i | 0 <= i < |xs| :: ContainsStr(xs[i], other) == Ok(true))
  {
    if xs == [] then Ok(false)
    else
      var hit :- ContainsStr(xs[0], other);
      if hit then Ok(true)
      else
        var rest := AnyContains(xs[1..], other);
        assert forall i | 0 <= i < |xs| - 1 :: xs[1..][i] == xs[i + 1];
        rest
  }

  /** The three tests of a rule against the record's food type and other-text. */
  function TypeHit(rule: FeedingRule, foodType: Value): bool
  {
    rule.ifType.Some? && PyEq(foodType, rule.ifType.value)
  }

  function AnyHit(rule: FeedingRule, foodOther: Value): Result<bool>
  {
    if rule.ifOtherContainsAny.Some? then AnyContains(rule.ifOtherContainsAny.value, foodOther) else Ok(false)
  }

  function ContainsHit(rule: FeedingRule, foodOther: Value): Result<bool>
  {
    if rule.ifOtherContains.Some? then ContainsStr(rule.ifOtherContains.value, foodOther) else Ok(false)
  }

  /** `s` when `hit`, else nothing. */
  function When(hit: bool, s: seq<Write>): seq<Write>
  {
    if hit then s else []
  }

  /** `s` merged `n` times in a row. */
  function Repeat(s: seq<Write>, n: nat): seq<Write>
  {
    if n == 0 then [] else Repeat(s, n - 1) + s
  }

  function Count(hit: bool): nat
  {
    if hit then 1 else 0
  }

  /** What one rule writes: its `set`, once for each of its three tests that matches. */
  function RuleWrites(rule: FeedingRule, foodType: Value, foodOther: Value): (res: Result<seq<Write>>)
    ensures res.Err? ==> res.error == TypeError
  {
    var typeHit := TypeHit(rule, foodType);
    var anyHit :- AnyHit(rule, foodOther);
    var containsHit :- ContainsHit(rule, foodOther);
    Ok(When(typeHit, rule.assigns) + When(anyHit, rule.assigns) + When(containsHit, rule.assigns))
  }

  /** A rule merges its `set` up to three times: once per matching test. */
  lemma RuleMergesUpToThrice(rule: FeedingRule, foodType: Value, foodOther: Value)
    requires RuleWrites(rule, foodType, foodOther).Ok?
    ensures exists n | 0 <= n <= 3 :: RuleWrites(rule, foodType, foodOther).value == Repeat(rule.assigns, n)
  {
    var typeHit := TypeHit(rule, foodType);
    var anyHit := AnyHit(rule, foodOther).value;
    var containsHit := ContainsHit(rule, foodOther).value;
    WhenSum(typeHit, anyHit, containsHit, rule.assigns);
    var n := Count(typeHit) + Count(anyHit) + Count(containsHit);
    var ws := When(typeHit, rule.assigns) + When(anyHit, rule.assigns) + When(containsHit, rule.assigns);
    assert RuleWrites(rule, foodType, foodOther) == Ok(ws);
    assert ws == Repeat(rule.assigns, n);
    assert 0 <= n <= 3;
  }

  lemma WhenSum(x: bool, y: bool, z: bool, s: seq<Write>)
    ensures When(x, s) + When(y, s) + When(z, s) == Repeat(s, Count(x) + Count(y) + Count(z))
  {
    assert Repeat(s, 1) == s;
    assert Repeat(s, 2) == s + s;
    assert Repeat(s, 3) == s + s + s;
  }

  /** Merging the same `set` several times leaves what merging it once leaves. */
  lemma {:induction false} RepeatedUpdate(m: map<string, Value>, s: seq<Write>, n: nat)
    requires n >= 1
    ensures ApplyWrites(m, Repeat(s, n)) == ApplyWrites(m, s)
  {
    if n == 1 {
      assert Repeat(s, 1) == [] + s;
      assert [] + s == s;
    } else {
      RepeatedUpdate(m, s, n - 1);
      ApplyWritesConcat(m, Repeat(s, n - 1), s);
      UpdateIdempotent(m, s);
      ApplyWritesConcat(m, s, s);
    }
  }

  /** A rule whose three tests all match merges its `set` three times. */
  lemma RuleMergesThrice(rule: FeedingRule, foodType: Value, foodOther: Value)
    requires TypeHit(rule, foodType) && AnyHit(rule, foodOther) == Ok(true) && ContainsHit(rule, foodOther) == Ok(true)
    ensures RuleWrites(rule, foodType, foodOther) == Ok(rule.assigns + rule.assigns + rule.assigns)
  {
  }

  /** A rule none of whose tests match writes nothing. */
  lemma RuleWithoutMatchWritesNothing(rule: FeedingRule, foodType: Value, foodOther: Value)
    requires !TypeHit(rule, foodType) && AnyHit(rule, foodOther) == Ok(false) && ContainsHit(rule, foodOther) == Ok(false)
    ensures RuleWrites(rule, foodType, foodOther) == Ok([])
  {
    var none: seq<Write> := [];
    assert none + none + none == none;
  }

  /** The writes of the feeding-rule step: the rules' writes in declared order. */
  function FeedingWrites(rules: seq<FeedingRule>, foodType: Value, foodOther: Value): (res: Result<seq<Write>>)
    ensures res.Err? ==> res.error == TypeError
  {
    if rules == [] then Ok([])
    else
      var init := rules[..|rules| - 1];
      assert forall i | 0 <= i < |init| :: init[i] == rules[i];
      var prev :- FeedingWrites(init, foodType, foodOther);
      var step :- RuleWrites(rules[|rules| - 1], foodType, foodOther);
      Ok(prev + step)
  }

  /** A rule that fails aborts the whole step, whatever rules follow. */
  lemma {:induction false} FeedingFailureAborts(rules: seq<FeedingRule>, foodType: Value, foodOther: Value, j: nat)
    requires j < |rules| && FeedingWrites(rules[..j], foodType, foodOther).Ok?
    requires RuleWrites(rules[j], foodType, foodOther).Err?
    ensures FeedingWrites(rules, foodType, foodOther).Err?
  {
    if j < |rules| - 1 {
      var init := rules[..|rules| - 1];
      assert init[..j] == rules[..j];
      assert init[j] == rules[j];
      FeedingFailureAborts(init, foodType, foodOther, j);
    } else {
      assert rules[..j] == rules[..|rules| - 1];
    }
  }

  /** One more rule that succeeds appends its writes. */
  lemma FeedingStep(rules: seq<FeedingRule>, foodType: Value, foodOther: Value, i: nat)
    requires i < |rules| && FeedingWrites(rules[..i], foodType, foodOther).Ok?
    requires RuleWrites(rules[i], foodType, foodOther).Ok?
    ensures FeedingWrites(rules[..i + 1], foodType, foodOther) ==
      Ok(FeedingWrites(rules[..i], foodType, foodOther).value + RuleWrites(rules[i], foodType, foodOther).value)
  {
    assert rules[..i + 1][..i] == rules[..i];
  }

  /** The last rule that writes a code decides it: its writes come after every other
      rule's, so the code ends up with that rule's value. */
  lemma {:induction false} LastMatchingRuleWins(rules: seq<FeedingRule>, foodType: Value, foodOther: Value, j: nat, k: string)
    requires FeedingWrites(rules, foodType, foodOther).Ok?
    requires j < |rules|
    requires RuleWrites(rules[j], foodType, foodOther).Ok? && Writes(RuleWrites(rules[j], foodType, foodOther).value, k)
    requires forall l | j < l < |rules| ::
      (RuleWrites(rules[l], foodType, foodOther).Ok? && !Writes(RuleWrites(rules[l], foodType, foodOther).value, k))
    ensures Writes(FeedingWrites(rules, foodType, foodOther).value, k)
    ensures LastWrite(FeedingWrites(rules, foodType, foodOther).value, k) ==
            LastWrite(RuleWrites(rules[j], foodType, foodOther).value, k)
  {
    var init := rules[..|rules| - 1];
    var prev := FeedingWrites(init, foodType, foodOther).value;
    var step := RuleWrites(rules[|rules| - 1], foodType, foodOther).value;
    assert FeedingWrites(rules, foodType, foodOther).value == prev + step;
    if j == |rules| - 1 {
      LastWriteOfConcat(prev, step, k);
    } else {
      assert init[j] == rules[j];
      LastMatchingRuleWins(init, foodType, foodOther, j, k);
      LastWriteOfConcat(prev, step, k);
    }
  }

  /** The last write of a concatenation: the second part's if it writes the key, else the
      first part's. */
  lemma {:induction false} LastWriteOfConcat(a: seq<Write>, b: seq<Write>, k: string)
    requires Writes(a, k) || Writes(b, k)
    ensures Writes(a + b, k)
    ensures Writes(b, k) ==> LastWrite(a + b, k) == LastWrite(b, k)
    ensures !Writes(b, k) ==> LastWrite(a + b, k) == LastWrite(a, k)
  {
    if Writes(b, k) {
      var i :| 0 <= i < |b| && b[i].0 == k;
      assert (a + b)[|a| + i] == b[i];
    } else {
      var i :| 0 <= i < |a| && a[i].0 == k;
      assert (a + b)[i] == a[i];
    }
    if b != [] {
      var init := b[..|b| - 1];
      assert (a + b)[..|a + b| - 1] == a + init;
      if b[|b| - 1].0 != k {
        if Writes(b, k) {
          var i :| 0 <= i < |b| && b[i].0 == k;
          assert init[i] == b[i];
        }
        if Writes(init, k) {
          var i :| 0 <= i < |init| && init[i].0 == k;
          assert b[i] == init[i];
        }
        LastWriteOfConcat(a, init, k);
      }
    } else {
      assert a + b == a;
    }
  }

  // ---------- the four steps together ----------

  /** Every write `transform_records` performs on a record's items, in order: field_map,
      enums, stage flags, feeding rules. The first failing step decides the error. */
  function ItemWrites(r: Record, rules: Ruleset): (res: Result<seq<Write>>)
    ensures res.Err? ==> res.error == TypeError
  {
    var f := FieldWrites(r, rules.fieldMap);
    var e :- EnumWrites(r, rules.enums);
    var s :- StageWrites(StageValue(r, rules.stagesField), rules.stageFlags);
    var d :- FeedingWrites(rules.feedingRules, Get(r, "feedBeesFoodType"), FoodOther(r));
    Ok(f + e + s + d)
  }

  /** The record's `items` dict. */
  function Items(r: Record, rules: Ruleset): (res: Result<map<string, Value>>)
    ensures res.Err? ==> res.error == TypeError
  {
    var ws :- ItemWrites(r, rules);
    Ok(ApplyWrites(map[], ws))
  }

  /** The overwrite order: a code written by a feeding rule has the feeding rules' value,
      whatever the earlier steps wrote; otherwise a stage flag beats enums and field_map,
      and an enum beats field_map. */
  lemma ItemsPrecedence(r: Record, rules: Ruleset, k: string)
    requires ItemWrites(r, rules).Ok?
    ensures var f := FieldWrites(r, rules.fieldMap);
      var e := EnumWrites(r, rules.enums).value;
      var s := StageWrites(StageValue(r, rules.stagesField), rules.stageFlags).value;
      var d := FeedingWrites(rules.feedingRules, Get(r, "feedBeesFoodType"), FoodOther(r)).value;
      var items := Items(r, rules).value;
      (Writes(d, k) ==> k in items && items[k] == LastWrite(d, k)) &&
      (!Writes(d, k) && Writes(s, k) ==> k in items && items[k] == LastWrite(s, k)) &&
      (!Writes(d, k) && !Writes(s, k) && Writes(e, k) ==> k in items && items[k] == LastWrite(e, k)) &&
      (!Writes(d, k) && !Writes(s, k) && !Writes(e, k) && Writes(f, k) ==> k in items && items[k] == LastWrite(f, k)) &&
      (!Writes(d, k) && !Writes(s, k) && !Writes(e, k) && !Writes(f, k) ==> k !in items)
  {
    var f := FieldWrites(r, rules.fieldMap);
    var e := EnumWrites(r, rules.enums).value;
    var s := StageWrites(StageValue(r, rules.stagesField), rules.stageFlags).value;
    var d := FeedingWrites(rules.feedingRules, Get(r, "feedBeesFoodType"), FoodOther(r)).value;
    assert ItemWrites(r, rules).value == f + e + s + d;
    ApplyWritesAt(map[], f + e + s + d, k);
    if Writes(d, k) || Writes(s, k) || Writes(e, k) || Writes(f, k) {
      if Writes(f, k) || Writes(e, k) {
        LastWriteOfConcat(f, e, k);
      }
      if Writes(f + e, k) || Writes(s, k) {
        LastWriteOfConcat(f + e, s, k);
      }
      LastWriteOfConcat(f + e + s, d, k);
    } else {
      assert !Writes(f + e, k) by { NoWriteConcat(f, e, k); }
      assert !Writes(f + e + s, k) by { NoWriteConcat(f + e, s, k); }
      NoWriteConcat(f + e + s, d, k);
    }
  }

  lemma NoWriteConcat(a: seq<Write>, b: seq<Write>, k: string)
    requires !Writes(a, k) && !Writes(b, k)
    ensures !Writes(a + b, k)
  {
  }

  // ---------- the imperative assembly ----------

  /** `items.update(ws)`: the writes performed one by one on the dict. */
  method Update(items: map<string, Value>, ws: seq<Write>) returns (out: map<string, Value>)
    ensures out == ApplyWrites(items, ws)
  {
    out := items;
    for i := 0 to |ws|
      invariant out == ApplyWrites(items, ws[..i])
    {
      assert ws[..i + 1][..i] == ws[..i];
      out := out[ws[i].0 := ws[i].1];
    }
    assert ws[..|ws|] == ws;
  }

  /** The dict after a step whose writes may fail: the error, or the writes applied. */
  function AfterStep(items: map<string, Value>, step: Result<seq<Write>>): Result<map<string, Value>>
  {
    match step
    case Ok(ws) => Ok(ApplyWrites(items, ws))
    case Err(e) => Err(e)
  }

  /** Loop 1: `items[code] = r.get(field)` for each `field_map` entry whose field is present
      and not null. */
  method ApplyFieldMap(r: Record, fm: seq<(string, string)>, start: map<string, Value>) returns (items: map<string, Value>)
    ensures items == ApplyWrites(start, FieldWrites(r, fm))
  {
    items := start;
    for i := 0 to |fm|
      invariant items == ApplyWrites(start, FieldWrites(r, fm[..i]))
    {
      assert fm[..i + 1][..i] == fm[..i];
      assert FieldWrites(r, fm[..i + 1]) == FieldWrites(r, fm[..i]) + FieldStep(r, fm[i]);
      ApplyWritesConcat(start, FieldWrites(r, fm[..i]), FieldStep(r, fm[i]));
      var code := fm[i].0;
      var field := fm[i].1;
      if field in r && r[field] != Null {
        items := items[code := r[field]];
      }
    }
    assert fm[..|fm|] == fm;
  }

  /** Loop 2: for each `enums` entry whose field value is a key of its value map, the
      assignments of that key; stops at an unhashable value. */
  method ApplyEnums(r: Record, en: seq<(string, seq<(string, seq<(string, Value)>)>)>, start: map<string, Value>)
    returns (res: Result<map<string, Value>>)
    ensures res == AfterStep(start, EnumWrites(r, en))
  {
    var items := start;
    for i := 0 to |en|
      invariant EnumWrites(r, en[..i]).Ok?
      invariant items == ApplyWrites(start, EnumWrites(r, en[..i]).value)
    {
      assert en[..i + 1][..i] == en[..i];
      var v := Get(r, en[i].0);
      if KeyOf(v).None? {
        assert EnumStep(r, en[i]).Err?;
        return Err(TypeError);
      }
      ghost var step := EnumStep(r, en[i]).value;
      if v.Str? && FieldGet(en[i].1, v.text).Some? {
        items := Update(items, FieldGet(en[i].1, v.text).value);
      }
      ApplyWritesConcat(start, EnumWrites(r, en[..i]).value, step);
    }
    assert en[..|en|] == en;
    res := Ok(items);
  }

  /** Loop 3: `items[str(code)] = True` for each flag whose label is in the stages value;
      stops when the stages value is not a container. */
  method ApplyStageFlags(stages: Value, flags: seq<(string, Value)>, start: map<string, Value>)
    returns (res: Result<map<string, Value>>)
    ensures res == AfterStep(start, StageWrites(stages, flags))
  {
    var items := start;
    for i := 0 to |flags|
      invariant StageWrites(stages, flags[..i]).Ok?
      invariant items == ApplyWrites(start, StageWrites(stages, flags[..i]).value)
    {
      var found := ContainsStr(flags[i].0, stages);
      if found.Err? {
        assert ContainsStr(flags[0].0, stages).Err?;
        return Err(TypeError);
      }
      StageWritesStep(stages, flags, i);
      var step := StageStep(stages, flags[i]).value;
      if found.value {
        items := items[PyStr(flags[i].1) := Bool(true)];
      }
      ApplyWritesConcat(start, StageWrites(stages, flags[..i]).value, step);
    }
    assert flags[..|flags| ] == flags;
    res := Ok(items);
  }

  /** The body of loop 4 for one rule: `items.update(rule["set"])` after each matching test. */
  method ApplyRule(rule: FeedingRule, foodType: Value, foodOther: Value, start: map<string, Value>)
    returns (res: Result<map<string, Value>>)
    ensures res == AfterStep(start, RuleWrites(rule, foodType, foodOther))
  {
    var items := start;
    var typeHit := TypeHit(rule, foodType);
    if typeHit {
      items := Update(items, rule.assigns);
    }
    var anyHit := AnyHit(rule, foodOther);
    if anyHit.Err? {
      return Err(TypeError);
    }
    var afterType := items;
    if anyHit.value {
      items := Update(items, rule.assigns);
    }
    var containsHit := ContainsHit(rule, foodOther);
    if containsHit.Err? {
      return Err(TypeError);
    }
    var afterAny := items;
    if containsHit.value {
      items := Update(items, rule.assigns);
    }
    var a := When(typeHit, rule.assigns);
    var b := When(anyHit.value, rule.assigns);
    var c := When(containsHit.value, rule.assigns);
    assert afterType == ApplyWrites(start, a);
    assert afterAny == ApplyWrites(afterType, b);
    assert items == ApplyWrites(afterAny, c);
    assert RuleWrites(rule, foodType, foodOther) == Ok(a + b + c);
    ApplyWritesConcat(start, a, b);
    ApplyWritesConcat(start, a + b, c);
    res := Ok(items);
  }

  /** Loop 4: the feeding rules in declared order. */
  method ApplyFeedingRules(rules: seq<FeedingRule>, foodType: Value, foodOther: Value, start: map<string, Value>)
    returns (res: Result<map<string, Value>>)
    ensures res == AfterStep(start, FeedingWrites(rules, foodType, foodOther))
  {
    var items := start;
    for i := 0 to |rules|
      invariant FeedingWrites(rules[..i], foodType, foodOther).Ok?
      invariant items == ApplyWrites(start, FeedingWrites(rules[..i], foodType, foodOther).value)
    {
      var step := ApplyRule(rules[i], foodType, foodOther, items);
      if step.Err? {
        FeedingFailureAborts(rules, foodType, foodOther, i);
        return Err(TypeError);
      }
      FeedingStep(rules, foodType, foodOther, i);
      ApplyWritesConcat(start, FeedingWrites(rules[..i], foodType, foodOther).value,
                        RuleWrites(rules[i], foodType, foodOther).value);
      items := step.value;
    }
    assert rules[..|rules|] == rules;
    res := Ok(items);
  }

  /** The four loops of `transform_records` that fill `items`, updating the dict in place;
      they give the dict `Items` describes, or stop at the first error. */
  method AssembleItems(r: Record, rules: Ruleset) returns (res: Result<map<string, Value>>)
    ensures res == Items(r, rules)
  {
    ghost var f := FieldWrites(r, rules.fieldMap);
    ghost var e := EnumWrites(r, rules.enums);
    var stages := StageValue(r, rules.stagesField);
    ghost var s := StageWrites(stages, rules.stageFlags);
    var foodType := Get(r, "feedBeesFoodType");
    var foodOther := FoodOther(r);
    ghost var d := FeedingWrites(rules.feedingRules, foodType, foodOther);

    var items := ApplyFieldMap(r, rules.fieldMap, map[]);
    var step := ApplyEnums(r, rules.enums, items);
    if step.Err? {
      return Err(step.error);
    }
    items := step.value;
    step := ApplyStageFlags(stages, rules.stageFlags, items);
    if step.Err? {
      return Err(step.error);
    }
    items := step.value;
    step := ApplyFeedingRules(rules.feedingRules, foodType, foodOther, items);
    if step.Err? {
      return Err(step.error);
    }
    items := step.value;

    assert ItemWrites(r, rules) == Ok(f + e.value + s.value + d.value);
    ApplyWritesConcat(map[], f, e.value);
    ApplyWritesConcat(map[], f + e.value, s.value);
    ApplyWritesConcat(map[], f + e.value + s.value, d.value);
    res := Ok(items);
  }
}

=== FILE: json.dfy ===
/** Parsed JSON as Python holds it, with the parts of Python's data model that the
    synchronizer relies on: truthiness, `==`, hashing for dict keys, and `str()`. */
module Json {
  import opened Base
  import opened Decimal

  /** A JSON value. An object keeps its keys in insertion order, as a Python dict does;
      its keys are distinct. JSON numbers with a fraction are not part of this model. */
  datatype Value =
    | Null
    | Bool(flag: bool)
    | Int(num: int)
    | Str(text: string)
    | List(elems: seq<Value>)
    | Obj(fields: seq<(string, Value)>)

  /** A source record or a reference-data response: a JSON object whose own key order
      never matters to the synchronizer. */
  type Record = map<string, Value>

  /** `bool(v)` */
  predicate Truthy(v: Value)
  {
    match v
    case Null => false
    case Bool(b) => b
    case Int(n) => n != 0
    case Str(t) => t != ""
    case List(xs) => xs != []
    case Obj(fs) => fs != []
  }

  /** `r.get(k)`: the value under `k`, or None. */
  function Get(r: Record, k: string): Value
  {
    if k in r then r[k] else Null
  }

  /** `r.get(k, default)` on a record. */
  function GetOr(r: Record, k: string, default: Value): Value
  {
    if k in r then r[k] else default
  }

  /** `d.get(k)` / `k in d` on a dict given as its entries: the value of the entry with
      that key (the first, should the entries repeat a key). */
  function FieldGet<T>(fs: seq<(string, T)>, k: string): Option<T>
  {
    if fs == [] then None
    else if fs[0].0 == k then Some(fs[0].1)
    else FieldGet(fs[1..], k)
  }

  /** `d.get(k, default)` on a nested dict. */
  function FieldOr(fs: seq<(string, Value)>, k: string, default: Value): Value
  {
    match FieldGet(fs, k)
    case Some(v) => v
    case None => default
  }

  /** Python's numeric view of `bool` and `int`: `True == 1`, `False == 0`. */
  function NumberOf(v: Value): int
    requires v.Bool? || v.Int?
  {
    if v.Bool? then (if v.flag then 1 else 0) else v.num
  }

  /** Python's `a == b` on JSON values. */
  predicate PyEq(a: Value, b: Value)
    decreases a
  {
    match a
    case Null => b.Null?
    case Bool(_) => (b.Bool? || b.Int?) && NumberOf(a) == NumberOf(b)
    case Int(_) => (b.Bool? || b.Int?) && NumberOf(a) == NumberOf(b)
    case Str(t) => b.Str? && b.text == t
    case List(xs) =>
      b.List? && |xs| == |b.elems| &&
      forall i | 0 <= i < |xs| :: PyEq(xs[i], b.elems[i])
    case Obj(fs) =>
      b.Obj? && |fs| == |b.fields| &&
      forall i | 0 <= i < |fs| ::
        exists j | 0 <= j < |b.fields| :: b.fields[j].0 == fs[i].0 && PyEq(fs[i].1, b.fields[j].1)
  }

  /** What a Python dict looks a hashable key up by: `None`, an integer (a bool is the
      integer 0 or 1) or a string. */
  datatype Key = KNone | KInt(n: int) | KStr(t: string)

  /** `hash(v)` as far as dict lookup is concerned; None when `v` is unhashable
      (a list or a dict), where Python raises TypeError. */
  function KeyOf(v: Value): Option<Key>
  {
    match v
    case Null => Some(KNone)
    case Bool(b) => Some(KInt(if b then 1 else 0))
    case Int(n) => Some(KInt(n))
    case Str(t) => Some(KStr(t))
    case _ => None
  }

  /** Dict lookup by key agrees with Python's `==`: two hashable values find the same
      entry exactly when they are equal. */
  lemma KeyOfAgreesWithEquality(a: Value, b: Value)
    requires KeyOf(a).Some? && KeyOf(b).Some?
    ensures KeyOf(a) == KeyOf(b) <==> PyEq(a, b)
  {
  }

  /** `str(v)`: a string is itself, everything else its `repr`. */
  function PyStr(v: Value): (t: string)
    ensures v.Str? ==> t == v.text
    ensures v.Null? ==> t == "None"
  {
    if v.Str? then v.text else Repr(v)
  }

  /** `repr(v)` for JSON values. */
  function Repr(v: Value): string
    decreases v
  {
    match v
    case Null => "None"
    case Bool(b) => if b then "True" else "False"
    case Int(n) => IntToDecimal(n)
    case Str(t) => StrRepr(t)
    case List(xs) =>
      "[" + Join(seq(|xs|, i requires 0 <= i < |xs| => Repr(xs[i]))) + "]"
    case Obj(fs) =>
      "{" + Join(seq(|fs|, i requires 0 <= i < |fs| => StrRepr(fs[i].0) + ": " + Repr(fs[i].1))) + "}"
  }

  /** `", ".join(parts)` */
  function Join(parts: seq<string>): string
  {
    if parts == [] then ""
    else if |parts| == 1 then parts[0]
    else parts[0] + ", " + Join(parts[1..])
  }

  /** `repr` of a string: single quotes unless the text holds a single quote and no
      double quote; the chosen quote and the backslash are escaped, as are tab, newline,
      carriage return and the other ASCII control characters. */
  function StrRepr(t: string): string
  {
    var quote := if '\'' in t && '"' !in t then '"' else '\'';
    [quote] + EscapeAll(t, quote) + [quote]
  }

  function EscapeAll(t: string, quote: char): string
  {
    if t == [] then "" else Escape(t[0], quote) + EscapeAll(t[1..], quote)
  }

  function Escape(c: char, quote: char): string
  {
    if c == quote || c == '\\' then ['\\', c]
    else if c == '\t' then "\\t"
    else if c == '\n' then "\\n"
    else if c == '\r' then "\\r"
    else if c < ' ' || c as int == 0x7f then "\\x" + [HexDigit(c as int / 16), HexDigit(c as int % 16)]
    else [c]
  }

  function HexDigit(d: nat): char
    requires d < 16
  {
    "0123456789abcdef"[d]
  }

  /** `x in container` for a string `x`, as Python evaluates it on a JSON value: substring
      test on a string, equality with some element of a list, key membership on a dict;
      TypeError on anything else ("argument of type ... is not iterable"). */
  function ContainsStr(x: string, container: Value): Result<bool>
  {
    match container
    case Str(t) => Ok(IsSubstring(x, t))
    case List(xs) => Ok(Str(x) in xs)
    case Obj(fs) => Ok(FieldGet(fs, x).Some?)
    case _ => Err(TypeError)
  }

  /** Python's `x in t` on two strings: `x` occurs in `t` at some offset. */
  predicate IsSubstring(x: string, t: string)
    decreases |t|
  {
    |x| <= |t| && (t[..|x|] == x || IsSubstring(x, t[1..]))
  }

  /** A string is found in a list exactly when some element is that very string:
      Python's `in` on a list compares with `==`, and a string equals only a string. */
  lemma ListMembershipIsEquality(x: string, xs: seq<Value>)
    ensures Str(x) in xs <==> exists i | 0 <= i < |xs| :: PyEq(Str(x), xs[i])
  {
    if Str(x) in xs {
      var i :| 0 <= i < |xs| && xs[i] == Str(x);
      assert PyEq(Str(x), xs[i]);
    }
  }
}

=== FILE: ledger.dfy ===
/** The import ledger (the `imported_records` table), the eligibility filter it drives and
    the upload loop that fills it. */
module Ledger {
  import opened Json
  import opened Transform

  /** A ledger row besides its key: the payload date and the checklist text of the upload. */
  datatype Entry = Entry(actionDate: string, checklistId: string)

  /** `INSERT OR IGNORE` keyed by the record id: a new id gets its row, an id already
      present keeps the row it has. */
  function InsertOrIgnore(entries: map<string, Entry>, id: string, e: Entry): (r: map<string, Entry>)
    ensures r.Keys == entries.Keys + {id}
    ensures forall k | k in entries :: r[k] == entries[k]
    ensures id !in entries ==> r[id] == e
  {
    if id in entries then entries else entries[id := e]
  }

  /** A batch of inserts performed in order. */
  function InsertAll(entries: map<string, Entry>, rows: seq<(string, Entry)>): map<string, Entry>
  {
    if rows == [] then entries
    else InsertOrIgnore(InsertAll(entries, rows[..|rows| - 1]), rows[|rows| - 1].0, rows[|rows| - 1].1)
  }

  /** First write wins: after any batch of inserts, a row that was there is unchanged, and
      a new id holds the row of its first insert. */
  lemma {:induction false} FirstWriteWins(entries: map<string, Entry>, rows: seq<(string, Entry)>, j: nat)
    requires j < |rows| && rows[j].0 !in entries
    requires forall l | 0 <= l < j :: rows[l].0 != rows[j].0
    ensures rows[j].0 in InsertAll(entries, rows)
    ensures InsertAll(entries, rows)[rows[j].0] == rows[j].1
  {
    var init := rows[..|rows| - 1];
    if j < |rows| - 1 {
      assert init[j] == rows[j];
      FirstWriteWins(entries, init, j);
    } else {
      assert forall l | 0 <= l < j :: init[l] == rows[l];
      NotInsertedAbsent(entries, init, rows[j].0);
    }
  }

  /** An id that no insert of the batch names is not added. */
  lemma {:induction false} NotInsertedAbsent(entries: map<string, Entry>, rows: seq<(string, Entry)>, id: string)
    requires id !in entries
    requires forall l | 0 <= l < |rows| :: rows[l].0 != id
    ensures id !in InsertAll(entries, rows)
  {
    if rows != [] {
      var init := rows[..|rows| - 1];
      assert forall l | 0 <= l < |init| :: init[l] == rows[l];
      NotInsertedAbsent(entries, init, id);
    }
  }

  /** A row that was there survives any batch of inserts unchanged. */
  lemma {:induction false} ExistingRowsSurvive(entries: map<string, Entry>, rows: seq<(string, Entry)>, id: string)
    requires id in entries
    ensures id in InsertAll(entries, rows) && InsertAll(entries, rows)[id] == entries[id]
  {
    if rows != [] {
      ExistingRowsSurvive(entries, rows[..|rows| - 1], id);
    }
  }

  /** The SQLite ledger as an in-memory table from record id to row. */
  class Ledger {
    var entries: map<string, Entry>

    /** `init_db`: `CREATE TABLE IF NOT EXISTS` keeps the rows of an existing database
        (`existing`, empty for a new file). */
    constructor (existing: map<string, Entry>)
      ensures entries == existing
    {
      entries := existing;
    }

    /** `mark_imported`: `INSERT OR IGNORE` of one row. */
    method MarkImported(recordId: string, actionDate: string, checklistId: string)
      modifies this
      ensures entries == InsertOrIgnore(old(entries), recordId, Entry(actionDate, checklistId))
      ensures ImportedIds() == old(ImportedIds()) + {recordId}
    {
      if recordId !in entries {
        entries := entries[recordId := Entry(actionDate, checklistId)];
      }
    }

    /** `get_imported_ids`: the ids of all rows. */
    function ImportedIds(): (ids: set<string>)
      reads this
      ensures forall id :: id in ids <==> id in entries
    {
      entries.Keys
    }
  }

  /** `[r for r in records if str(r.get("id")) not in imported]`. */
  function Eligible(records: seq<Record>, imported: set<string>): (out: seq<Record>)
    ensures |out| <= |records|
  {
    if records == [] then []
    else
      var last := records[|records| - 1];
      Eligible(records[..|records| - 1], imported) + (if SourceId(last) in imported then [] else [last])
  }

  /** The filter keeps exactly the records whose id is not in the ledger, in their order:
      every record kept is an input record with an unledgered id, every input record with
      an unledgered id is kept, and the kept records appear in input order. */
  lemma {:induction false} EligibleExactly(records: seq<Record>, imported: set<string>) returns (picked: seq<nat>)
    ensures var out := Eligible(records, imported);
      |picked| == |out| &&
      (forall j | 0 <= j < |picked| :: picked[j] < |records| && out[j] == records[picked[j]]
         && SourceId(records[picked[j]]) !in imported) &&
      (forall j, l | 0 <= j < l < |picked| :: picked[j] < picked[l]) &&
      (forall i | 0 <= i < |records| && i !in picked :: SourceId(records[i]) in imported)
  {
    if records == [] {
      picked := [];
    } else {
      var n := |records| - 1;
      var init := records[..n];
      var pre := EligibleExactly(init, imported);
      var prev := Eligible(init, imported);
      assert forall i | 0 <= i < n :: init[i] == records[i];
      var out := Eligible(records, imported);
      if SourceId(records[n]) in imported {
        assert out == prev;
        picked := pre;
      } else {
        assert out == prev + [records[n]];
        picked := pre + [n];
        forall j | 0 <= j < |picked|
          ensures picked[j] < |records| && out[j] == records[picked[j]] && SourceId(records[picked[j]]) !in imported
        {
          if j < |pre| {
            assert picked[j] == pre[j] && out[j] == prev[j];
          }
        }
      }
      forall i | 0 <= i < |records| && i !in picked
        ensures SourceId(records[i]) in imported
      {
        if i < n {
          assert i !in pre;
        }
      }
    }
  }

  /** A record is eligible exactly when its id is not in the ledger. */
  lemma EligibleMembership(records: seq<Record>, imported: set<string>, r: Record)
    requires r in records
    ensures r in Eligible(records, imported) <==> SourceId(r) !in imported
  {
    var picked := EligibleExactly(records, imported);
    var out := Eligible(records, imported);
    if r in out {
      var j :| 0 <= j < |out| && out[j] == r;
      assert SourceId(records[picked[j]]) !in imported;
    }
  }

  /** The ledger rows the upload loop writes: one per successful upload, in order. */
  function UploadRows(transformed: seq<Transformed>, outcomes: seq<bool>): (rows: seq<(string, Entry)>)
    requires |outcomes| == |transformed|
    ensures |rows| <= |transformed|
  {
    if transformed == [] then []
    else
      var n := |transformed| - 1;
      var t := transformed[n];
      UploadRows(transformed[..n], outcomes[..n])
        + (if outcomes[n] then [(t.sourceId, Entry(t.payload.date, t.checklistText))] else [])
  }

  /** The ledger after the upload loop. */
  function Uploaded(entries: map<string, Entry>, transformed: seq<Transformed>, outcomes: seq<bool>): map<string, Entry>
    requires |outcomes| == |transformed|
  {
    InsertAll(entries, UploadRows(transformed, outcomes))
  }

  /** One more triple: its row is inserted when its upload succeeded. */
  lemma UploadedStep(entries: map<string, Entry>, transformed: seq<Transformed>, outcomes: seq<bool>, i: nat)
    requires |outcomes| == |transformed| && i < |transformed|
    ensures var t := transformed[i];
      var before := Uploaded(entries, transformed[..i], outcomes[..i]);
      Uploaded(entries, transformed[..i + 1], outcomes[..i + 1]) ==
        if outcomes[i] then InsertOrIgnore(before, t.sourceId, Entry(t.payload.date, t.checklistText)) else before
  {
    assert transformed[..i + 1][..i] == transformed[..i];
    assert outcomes[..i + 1][..i] == outcomes[..i];
    var prev := UploadRows(transformed[..i], outcomes[..i]);
    var rows := UploadRows(transformed[..i + 1], outcomes[..i + 1]);
    if outcomes[i] {
      assert rows[..|rows| - 1] == prev;
    } else {
      assert rows == prev;
    }
  }

  /** After the upload loop the ledger holds the ids it held before and exactly the ids of
      the successful uploads besides: a failure neither adds its own id nor keeps a later
      success from being recorded. */
  lemma {:induction false} UploadedIds(entries: map<string, Entry>, transformed: seq<Transformed>, outcomes: seq<bool>, id: string)
    requires |outcomes| == |transformed|
    ensures id in Uploaded(entries, transformed, outcomes) <==>
      id in entries || exists i | 0 <= i < |transformed| :: outcomes[i] && transformed[i].sourceId == id
  {
    if transformed != [] {
      var n := |transformed| - 1;
      UploadedIds(entries, transformed[..n], outcomes[..n], id);
      UploadedStep(entries, transformed, outcomes, n);
      assert transformed[..n + 1] == transformed && outcomes[..n + 1] == outcomes;
      if exists i | 0 <= i < |transformed| :: outcomes[i] && transformed[i].sourceId == id {
        var i :| 0 <= i < |transformed| && outcomes[i] && transformed[i].sourceId == id;
        if i < n {
          assert transformed[..n][i] == transformed[i] && outcomes[..n][i] == outcomes[i];
        }
      }
      if exists i | 0 <= i < n :: outcomes[..n][i] && transformed[..n][i].sourceId == id {
        var i :| 0 <= i < n && outcomes[..n][i] && transformed[..n][i].sourceId == id;
        assert transformed[i] == transformed[..n][i];
      }
    }
  }

  /** `upload_records`: posts every payload in order, whatever happened to the previous
      ones, and ledgers each one whose post succeeded. `outcomes[i]` is whether the post of
      the i-th triple succeeded. */
  method UploadRecords(ledger: Ledger, transformed: seq<Transformed>, outcomes: seq<bool>) returns (posted: seq<Payload>)
    requires |outcomes| == |transformed|
    modifies ledger
    ensures ledger.entries == Uploaded(old(ledger.entries), transformed, outcomes)
    ensures |posted| == |transformed| && forall i | 0 <= i < |transformed| :: posted[i] == transformed[i].payload
  {
    posted := [];
    for i := 0 to |transformed|
      invariant ledger.entries == Uploaded(old(ledger.entries), transformed[..i], outcomes[..i])
      invariant |posted| == i && forall j | 0 <= j < i :: posted[j] == transformed[j].payload
    {
      assert transformed[..i + 1][..i] == transformed[..i];
      assert outcomes[..i + 1][..i] == outcomes[..i];
      UploadedStep(old(ledger.entries), transformed, outcomes, i);
      var t := transformed[i];
      posted := posted + [t.payload];
      if outcomes[i] {
        ledger.MarkImported(t.sourceId, t.payload.date, t.checklistText);
      }
    }
    assert transformed[..|transformed|] == transformed;
    assert outcomes[..|outcomes|] == outcomes;
  }
}

=== FILE: lookup.dfy ===
/** The reference data of the target service as `transform_records` uses it: the
    name -> id tables built from the hive and checklist responses, the hive ids of a
    record, its checklist and reminder, and its action date. */
module Lookup {
  import opened Base
  import opened Json
  import opened Dates

  /** `for x in v`: a list yields its elements, a string its one-character strings, a dict
      its keys; anything else is not iterable (TypeError). */
  function IterElems(v: Value): (r: Result<seq<Value>>)
    ensures v.List? ==> r == Ok(v.elems)
    ensures r.Err? <==> (v.Null? || v.Bool? || v.Int?)
    ensures r.Ok? && v.Str? ==> |r.value| == |v.text| && forall i | 0 <= i < |v.text| :: r.value[i] == Str([v.text[i]])
    ensures r.Ok? && v.Obj? ==> |r.value| == |v.fields| && forall i | 0 <= i < |v.fields| :: r.value[i] == Str(v.fields[i].0)
  {
    match v
    case List(xs) => Ok(xs)
    case Str(t) => Ok(seq(|t|, i requires 0 <= i < |t| => Str([t[i]])))
    case Obj(fs) => Ok(seq(|fs|, i requires 0 <= i < |fs| => Str(fs[i].0)))
    case _ => Err(TypeError)
  }

  /** What one element of a reference list contributes to its table: its hashed name and
      its id when the element is a dict whose `name` and `id` are both truthy and whose
      name is hashable. */
  function EntryOf(h: Value): Option<(Key, Value)>
  {
    if !h.Obj? then None
    else
      var name := FieldOr(h.fields, "name", Null);
      var id := FieldOr(h.fields, "id", Null);
      if Truthy(name) && Truthy(id) && KeyOf(name).Some? then Some((KeyOf(name).value, id)) else None
  }

  /** An element the comprehension cannot get through: one that has no `.get`
      (AttributeError), or a kept entry whose name cannot be a dict key (TypeError). */
  predicate Rejects(h: Value)
  {
    !h.Obj? ||
    (Truthy(FieldOr(h.fields, "name", Null)) && Truthy(FieldOr(h.fields, "id", Null))
      && KeyOf(FieldOr(h.fields, "name", Null)).None?)
  }

  /** `{h["name"]: h["id"] for h in hs if h.get("name") and h.get("id")}`. */
  function LookupEntries(hs: seq<Value>): (r: Result<map<Key, Value>>)
    ensures r.Ok? <==> forall i | 0 <= i < |hs| :: !Rejects(hs[i])
    ensures r.Err? ==> r.error == AttributeError || r.error == TypeError
    ensures r.Ok? ==> forall k | k in r.value :: Truthy(r.value[k])
  {
    if hs == [] then Ok(map[])
    else
      var m :- LookupEntries(hs[..|hs| - 1]);
      var h := hs[|hs| - 1];
      if !h.Obj? then Err(AttributeError)
      else if Rejects(h) then Err(TypeError)
      else match EntryOf(h)
        case None => Ok(m)
        case Some(e) => Ok(m[e.0 := e.1])
  }

  /** The table built from `response.get(listKey, [])`: `hive_map` with "hives",
      `checklist_map` with "checklists". */
  function BuildLookup(response: Record, listKey: string): (r: Result<map<Key, Value>>)
    ensures r.Ok? ==> forall k | k in r.value :: Truthy(r.value[k])
    ensures listKey !in response ==> r == Ok(map[])
    ensures listKey in response && response[listKey].List? ==> r == LookupEntries(response[listKey].elems)
  {
    var hs :- IterElems(GetOr(response, listKey, List([])));
    LookupEntries(hs)
  }

  /** A name is in the table exactly when some element of the list contributes it. */
  lemma {:induction false} LookupKeys(hs: seq<Value>, k: Key)
    requires LookupEntries(hs).Ok?
    ensures k in LookupEntries(hs).value <==>
      exists i | 0 <= i < |hs| :: EntryOf(hs[i]).Some? && EntryOf(hs[i]).value.0 == k
  {
    if hs != [] {
      var init := hs[..|hs| - 1];
      LookupKeys(init, k);
      if k in LookupEntries(hs).value && k !in LookupEntries(init).value {
        assert EntryOf(hs[|hs| - 1]).Some? && EntryOf(hs[|hs| - 1]).value.0 == k;
      }
      if exists i | 0 <= i < |hs| :: EntryOf(hs[i]).Some? && EntryOf(hs[i]).value.0 == k {
        var i :| 0 <= i < |hs| && EntryOf(hs[i]).Some? && EntryOf(hs[i]).value.0 == k;
        if i < |hs| - 1 {
          assert init[i] == hs[i];
        }
      }
    }
  }

  /** A later entry with the same name overwrites an earlier one: the table holds the id
      of the last element that contributes the name. */
  lemma {:induction false} LookupLastWins(hs: seq<Value>, i: nat)
    requires LookupEntries(hs).Ok?
    requires i < |hs| && EntryOf(hs[i]).Some?
    requires forall j | i < j < |hs| :: EntryOf(hs[j]).None? || EntryOf(hs[j]).value.0 != EntryOf(hs[i]).value.0
    ensures EntryOf(hs[i]).value.0 in LookupEntries(hs).value
    ensures LookupEntries(hs).value[EntryOf(hs[i]).value.0] == EntryOf(hs[i]).value.1
  {
    if i < |hs| - 1 {
      var init := hs[..|hs| - 1];
      assert init[i] == hs[i];
      LookupLastWins(init, i);
    }
  }

  /** One hive of a record as the `hive_ids` comprehension reads it: `h["name"]` needs a
      dict (TypeError) with a `name` key (KeyError), and the lookup a hashable name. */
  function HiveKey(h: Value): (r: Result<Key>)
    ensures r.Err? <==> !h.Obj? || FieldGet(h.fields, "name").None? || KeyOf(FieldGet(h.fields, "name").value).None?
  {
    if !h.Obj? then Err(TypeError)
    else match FieldGet(h.fields, "name")
      case None => Err(KeyError)
      case Some(name) =>
        match KeyOf(name)
        case None => Err(TypeError)
        case Some(k) => Ok(k)
  }

  /** `[hive_map.get(h["name"]) for h in hs if hive_map.get(h["name"])]`. */
  function HiveIds(hs: seq<Value>, hiveMap: map<Key, Value>): (r: Result<seq<Value>>)
    ensures r.Ok? <==> forall i | 0 <= i < |hs| :: HiveKey(hs[i]).Ok?
    ensures r.Ok? ==> |r.value| <= |hs|
  {
    if hs == [] then Ok([])
    else
      var ids :- HiveIds(hs[..|hs| - 1], hiveMap);
      var k :- HiveKey(hs[|hs| - 1]);
      if k in hiveMap && Truthy(hiveMap[k]) then Ok(ids + [hiveMap[k]]) else Ok(ids)
  }

  /** A hive name that resolves: it is in the table with a truthy id. */
  predicate Known(h: Value, hiveMap: map<Key, Value>)
  {
    HiveKey(h).Ok? && HiveKey(h).value in hiveMap && Truthy(hiveMap[HiveKey(h).value])
  }

  /** `hive_ids` is the ordered subsequence of the record's hives whose name is known,
      each replaced by its id: the lemma names the positions picked, strictly increasing,
      and every position left out holds an unknown name. */
  lemma {:induction false} HiveIdsPicks(hs: seq<Value>, hiveMap: map<Key, Value>) returns (picked: seq<nat>)
    requires HiveIds(hs, hiveMap).Ok?
    ensures var ids := HiveIds(hs, hiveMap).value;
      |picked| == |ids| &&
      (forall j | 0 <= j < |picked| :: picked[j] < |hs| && Known(hs[picked[j]], hiveMap)
         && ids[j] == hiveMap[HiveKey(hs[picked[j]]).value]) &&
      (forall j, l | 0 <= j < l < |picked| :: picked[j] < picked[l]) &&
      (forall i | 0 <= i < |hs| && i !in picked :: !Known(hs[i], hiveMap))
  {
    if hs == [] {
      picked := [];
    } else {
      var n := |hs| - 1;
      var init := hs[..n];
      var pre := HiveIdsPicks(init, hiveMap);
      assert forall i | 0 <= i < n :: init[i] == hs[i];
      if Known(hs[n], hiveMap) {
        picked := pre + [n];
      } else {
        picked := pre;
      }
    }
  }

  /** `r.get("hives", [])` resolved to hive ids. */
  function ResolveHives(r: Record, hiveMap: map<Key, Value>): (res: Result<seq<Value>>)
    ensures "hives" !in r ==> res == Ok([])
    ensures "hives" in r && r["hives"].List? ==> res == HiveIds(r["hives"].elems, hiveMap)
  {
    var hs :- IterElems(GetOr(r, "hives", List([])));
    HiveIds(hs, hiveMap)
  }

  /** The reminder text for a record whose type has no checklist: `Missing: `, then
      `str(type)`, a slash and `str(typeOther)`. */
  function Reminder(r: Record): (t: string)
    ensures |t| == 10 + |PyStr(Get(r, "type"))| + |PyStr(Get(r, "typeOther"))|
    ensures t[..9] == "Missing: "
    ensures t[9..9 + |PyStr(Get(r, "type"))|] == PyStr(Get(r, "type"))
    ensures t[9 + |PyStr(Get(r, "type"))|] == '/'
    ensures t[10 + |PyStr(Get(r, "type"))|..] == PyStr(Get(r, "typeOther"))
  {
    "Missing: " + PyStr(Get(r, "type")) + "/" + PyStr(Get(r, "typeOther"))
  }

  /** `checklist_map.get(type) or checklist_map.get(fallback)` and the reminder, which is
      None exactly when the type is a key of the table. Both a record type and a fallback
      name that cannot be hashed raise TypeError. */
  function ResolveChecklist(r: Record, checklists: map<Key, Value>, fallback: Value): (res: Result<(Value, Value)>)
    ensures res.Err? ==> res.error == TypeError
    ensures KeyOf(Get(r, "type")).None? ==> res == Err(TypeError)
  {
    match KeyOf(Get(r, "type"))
    case None => Err(TypeError)
    case Some(k) =>
      var direct := if k in checklists then checklists[k] else Null;
      var id :- if Truthy(direct) then Ok(direct)
        else match KeyOf(fallback)
          case None => Err(TypeError)
          case Some(f) => Ok(if f in checklists then checklists[f] else Null);
      Ok((id, if k in checklists then Null else Str(Reminder(r))))
  }

  /** With a table built by `BuildLookup` (every id truthy): a known type gives its own
      checklist and no reminder; an unknown type gives the fallback's checklist, or None
      when the fallback is not known either, and the "Missing: <type>/<typeOther>"
      reminder. */
  lemma ChecklistResolution(r: Record, checklists: map<Key, Value>, fallback: Value)
    requires forall k | k in checklists :: Truthy(checklists[k])
    requires KeyOf(Get(r, "type")).Some?
    ensures var k := KeyOf(Get(r, "type")).value;
      var res := ResolveChecklist(r, checklists, fallback);
      (k in checklists ==> res == Ok((checklists[k], Null))) &&
      (k !in checklists && KeyOf(fallback).Some? && KeyOf(fallback).value in checklists ==>
         res == Ok((checklists[KeyOf(fallback).value], Str(Reminder(r))))) &&
      (k !in checklists && KeyOf(fallback).Some? && KeyOf(fallback).value !in checklists ==>
         res == Ok((Null, Str(Reminder(r))))) &&
      (k !in checklists && KeyOf(fallback).None? ==> res == Err(TypeError))
  {
    var k := KeyOf(Get(r, "type")).value;
    var res := ResolveChecklist(r, checklists, fallback);
    if k in checklists {
      assert Truthy(checklists[k]);
      assert res == Ok((checklists[k], Null));
    } else {
      var reminder := Str(Reminder(r));
      assert !Truthy(Null);
      match KeyOf(fallback)
      case None =>
        assert res == Err(TypeError);
      case Some(f) =>
        assert res == Ok((if f in checklists then checklists[f] else Null, reminder));
    }
  }

  /** `datetime.strptime(r["actionDate"], ...).strftime(...)`: a record without the key
      raises KeyError, a non-string date TypeError, a malformed one ValueError. */
  function ActionDate(r: Record, calendarOk: Stamp -> bool): (res: Result<string>)
    ensures "actionDate" !in r ==> res == Err(KeyError)
    ensures "actionDate" in r && !r["actionDate"].Str? ==> res == Err(TypeError)
    ensures "actionDate" in r && r["actionDate"].Str? ==> res == NormalizeDate(r["actionDate"].text, calendarOk)
    ensures res.Ok? ==> |res.value| == 20 && res.value[19] == 'Z'
  {
    if "actionDate" !in r then Err(KeyError)
    else if !r["actionDate"].Str? then Err(TypeError)
    else NormalizeDate(r["actionDate"].text, calendarOk)
  }
}

=== FILE: mappings.dfy ===
/** The mapping ruleset: `load_mappings` and the shape in which `transform_records` reads it. */
module Mappings {
  import opened Base
  import opened Json

  /** One entry of `feeding_rules`. Each test is present only when its key is in the rule;
      `assigns` is the rule's `set` (an empty dict when the rule has none). */
  datatype FeedingRule = FeedingRule(
    ifType: Option<Value>,
    ifOtherContainsAny: Option<seq<string>>,
    ifOtherContains: Option<string>,
    assigns: seq<(string, Value)>)

  /** The ruleset as the transformation reads it: every table keeps the document's order.
      - fieldMap: destination item code -> source field name;
      - enums: source field -> (source value -> (item code -> destination value));
      - stagesField and stageFlags: the field holding the stage labels, and label -> item code;
      - feedingRules: the conditional rules, in declared order;
      - checklistFallback: the checklist name used when the record's type has none. */
  datatype Ruleset = Ruleset(
    fieldMap: seq<(string, string)>,
    enums: seq<(string, seq<(string, seq<(string, Value)>)>)>,
    stagesField: string,
    stageFlags: seq<(string, Value)>,
    feedingRules: seq<FeedingRule>,
    checklistFallback: Value)

  const DefaultStagesField: string := "inspectionBroodStages"
  const DefaultFallback: string := "TBD"

  /** The five defaults `load_mappings` installs when their keys are missing. */
  const DefaultFieldMap: Value := Obj([])
  const DefaultEnums: Value := Obj([])
  const DefaultStagesFlags: Value := Obj([("field", Str(DefaultStagesField)), ("flags", Obj([]))])
  const DefaultFeedingRules: Value := List([])
  const DefaultChecklistFallback: Value := Str(DefaultFallback)

  /** `d.setdefault(k, v)`: the value stays if the key is there, else the key gets `v`. */
  function SetDefault(m: map<string, Value>, k: string, v: Value): (r: map<string, Value>)
    ensures r.Keys == m.Keys + {k}
    ensures forall j | j in m :: r[j] == m[j]
    ensures k !in m ==> r[k] == v
  {
    if k in m then m else m[k := v]
  }

  /** The five keys `load_mappings` fills in. */
  const DefaultKeys: set<string> := {"field_map", "enums", "stages_flags", "feeding_rules", "checklist_fallback"}

  /** The default installed under each of the five keys. */
  function DefaultFor(k: string): Value
  {
    if k == "field_map" then DefaultFieldMap
    else if k == "enums" then DefaultEnums
    else if k == "stages_flags" then DefaultStagesFlags
    else if k == "feeding_rules" then DefaultFeedingRules
    else DefaultChecklistFallback
  }

  /** The mappings document once its defaults are in place: every key of the document keeps
      its value, and each of the five default keys that was absent gets its default. */
  function WithDefaults(doc: map<string, Value>): (m: map<string, Value>)
    ensures m.Keys == doc.Keys + DefaultKeys
    ensures forall k | k in doc :: m[k] == doc[k]
    ensures "field_map" !in doc ==> m["field_map"] == DefaultFieldMap
    ensures "enums" !in doc ==> m["enums"] == DefaultEnums
    ensures "stages_flags" !in doc ==> m["stages_flags"] == DefaultStagesFlags
    ensures "feeding_rules" !in doc ==> m["feeding_rules"] == DefaultFeedingRules
    ensures "checklist_fallback" !in doc ==> m["checklist_fallback"] == DefaultChecklistFallback
  {
    map k | k in doc.Keys + DefaultKeys :: if k in doc then doc[k] else DefaultFor(k)
  }

  /** The document after `setdefault` has been called for the keys in `done`. */
  predicate DefaultedFor(doc: map<string, Value>, m: map<string, Value>, done: set<string>)
  {
    m.Keys == doc.Keys + done && forall k | k in m :: m[k] == if k in doc then doc[k] else DefaultFor(k)
  }

  /** Each of the five default values is the one `DefaultFor` gives its key. */
  lemma DefaultForKeys()
    ensures DefaultFor("field_map") == DefaultFieldMap
    ensures DefaultFor("enums") == DefaultEnums
    ensures DefaultFor("stages_flags") == DefaultStagesFlags
    ensures DefaultFor("feeding_rules") == DefaultFeedingRules
    ensures DefaultFor("checklist_fallback") == DefaultChecklistFallback
  {
    assert |"field_map"| == 9 && |"enums"| == 5 && |"stages_flags"| == 12
      && |"feeding_rules"| == 13 && |"checklist_fallback"| == 18;
  }

  /** One more `setdefault` with a key's own default extends the keys done by that key. */
  lemma SetDefaultStep(doc: map<string, Value>, m: map<string, Value>, done: set<string>, k: string, v: Value)
    requires DefaultedFor(doc, m, done) && v == DefaultFor(k)
    ensures DefaultedFor(doc, SetDefault(m, k, v), done + {k})
  {
  }

  /** With all five keys done, in the order `load_mappings` does them, the document is the
      one `WithDefaults` describes. */
  lemma DefaultedComplete(doc: map<string, Value>, m: map<string, Value>, done: set<string>)
    requires done == {} + {"field_map"} + {"enums"} + {"stages_flags"} + {"feeding_rules"} + {"checklist_fallback"}
    requires DefaultedFor(doc, m, done)
    ensures m == WithDefaults(doc)
  {
    assert done == DefaultKeys;
  }

  /** `load_mappings` after the JSON has been read: five `setdefault` calls, in order, on
      the document itself. */
  method LoadMappings(doc: map<string, Value>) returns (m: map<string, Value>)
    ensures m == WithDefaults(doc)
  {
    DefaultForKeys();
    m := doc;
    ghost var done: set<string> := {};
    assert DefaultedFor(doc, m, done);
    SetDefaultStep(doc, m, done, "field_map", DefaultFieldMap);
    m, done := SetDefault(m, "field_map", DefaultFieldMap), done + {"field_map"};
    SetDefaultStep(doc, m, done, "enums", DefaultEnums);
    m, done := SetDefault(m, "enums", DefaultEnums), done + {"enums"};
    SetDefaultStep(doc, m, done, "stages_flags", DefaultStagesFlags);
    m, done := SetDefault(m, "stages_flags", DefaultStagesFlags), done + {"stages_flags"};
    SetDefaultStep(doc, m, done, "feeding_rules", DefaultFeedingRules);
    m, done := SetDefault(m, "feeding_rules", DefaultFeedingRules), done + {"feeding_rules"};
    SetDefaultStep(doc, m, done, "checklist_fallback", DefaultChecklistFallback);
    m, done := SetDefault(m, "checklist_fallback", DefaultChecklistFallback), done + {"checklist_fallback"};
    DefaultedComplete(doc, m, done);
  }

  /** The ruleset `transform_records` reads from a mappings document, with the defaults of
      its own `.get` calls; None when a part does not have the shape the code expects.
      A missing key reads as its default table, and a document with none of the five keys
      is the empty ruleset. */
  function DecodeRuleset(doc: map<string, Value>): (r: Option<Ruleset>)
    ensures r.Some? ==> r.value.checklistFallback == GetOr(doc, "checklist_fallback", Str(DefaultFallback))
    ensures r.Some? && "field_map" !in doc ==> r.value.fieldMap == []
    ensures r.Some? && "enums" !in doc ==> r.value.enums == []
    ensures r.Some? && "feeding_rules" !in doc ==> r.value.feedingRules == []
    ensures r.Some? && "stages_flags" !in doc ==> r.value.stagesField == DefaultStagesField && r.value.stageFlags == []
    ensures r.Some? && "field_map" in doc ==>
      (doc["field_map"].Obj? && |r.value.fieldMap| == |doc["field_map"].fields|
       && forall i | 0 <= i < |r.value.fieldMap| ::
            doc["field_map"].fields[i] == (r.value.fieldMap[i].0, Str(r.value.fieldMap[i].1)))
    ensures doc.Keys !! DefaultKeys ==> r == Some(Ruleset([], [], DefaultStagesField, [], [], Str(DefaultFallback)))
  {
    var stagesCfg := GetOr(doc, "stages_flags", Obj([]));
    if !stagesCfg.Obj? then None
    else
      var stagesField := FieldOr(stagesCfg.fields, "field", Str(DefaultStagesField));
      match (DecodeFieldMap(GetOr(doc, "field_map", Obj([]))),
             DecodeEnums(GetOr(doc, "enums", Obj([]))),
             FieldOr(stagesCfg.fields, "flags", Obj([])),
             DecodeRules(GetOr(doc, "feeding_rules", List([]))))
      case (Some(fm), Some(en), Obj(flags), Some(rules)) =>
        if stagesField.Str? then
          Some(Ruleset(fm, en, stagesField.text, flags, rules, GetOr(doc, "checklist_fallback", Str(DefaultFallback))))
        else None
      case _ => None
  }

  function DecodeFieldMap(v: Value): Option<seq<(string, string)>>
  {
    if v.Obj? then StrEntries(v.fields) else None
  }

  function StrEntries(fs: seq<(string, Value)>): (r: Option<seq<(string, string)>>)
    ensures r.Some? <==> forall i | 0 <= i < |fs| :: fs[i].1.Str?
    ensures r.Some? ==> |r.value| == |fs| && forall i | 0 <= i < |fs| :: fs[i] == (r.value[i].0, Str(r.value[i].1))
  {
    if fs == [] then Some([])
    else if !fs[0].1.Str? then None
    else match StrEntries(fs[1..])
      case None => None
      case Some(rest) => Some([(fs[0].0, fs[0].1.text)] + rest)
  }

  function DecodeEnums(v: Value): Option<seq<(string, seq<(string, seq<(string, Value)>)>)>>
  {
    if v.Obj? then EnumEntries(v.fields) else None
  }

  function EnumEntries(fs: seq<(string, Value)>): Option<seq<(string, seq<(string, seq<(string, Value)>)>)>>
  {
    if fs == [] then Some([])
    else if !fs[0].1.Obj? then None
    else match (ObjEntries(fs[0].1.fields), EnumEntries(fs[1..]))
      case (Some(vm), Some(rest)) => Some([(fs[0].0, vm)] + rest)
      case _ => None
  }

  function ObjEntries(fs: seq<(string, Value)>): Option<seq<(string, seq<(string, Value)>)>>
  {
    if fs == [] then Some([])
    else if !fs[0].1.Obj? then None
    else match ObjEntries(fs[1..])
      case None => None
      case Some(rest) => Some([(fs[0].0, fs[0].1.fields)] + rest)
  }

  function DecodeRules(v: Value): Option<seq<FeedingRule>>
  {
    if v.List? then RuleList(v.elems) else None
  }

  function RuleList(xs: seq<Value>): Option<seq<FeedingRule>>
  {
    if xs == [] then Some([])
    else match (DecodeRule(xs[0]), RuleList(xs[1..]))
      case (Some(rule), Some(rest)) => Some([rule] + rest)
      case _ => None
  }

  function DecodeRule(v: Value): Option<FeedingRule>
  {
    if !v.Obj? then None
    else
      var fs := v.fields;
      var anyOf := FieldGet(fs, "if_other_contains_any");
      var contains := FieldGet(fs, "if_other_contains");
      var assigns := FieldOr(fs, "set", Obj([]));
      var anyList := if anyOf.Some? && anyOf.value.List? then StrList(anyOf.value.elems) else None;
      if anyOf.Some? && anyList.None? then None
      else if contains.Some? && !contains.value.Str? then None
      else if !assigns.Obj? then None
      else Some(FeedingRule(
        FieldGet(fs, "if_type"),
        anyList,
        if contains.Some? then Some(contains.value.text) else None,
        assigns.fields))
  }

  function StrList(xs: seq<Value>): Option<seq<string>>
  {
    if xs == [] then Some([])
    else if !xs[0].Str? then None
    else match StrList(xs[1..])
      case None => None
      case Some(rest) => Some([xs[0].text] + rest)
  }

  /** The ruleset of an empty document: no rules at all, stage labels read from
      `inspectionBroodStages`, fallback checklist `TBD`. */
  lemma EmptyDocumentRuleset()
    ensures DecodeRuleset(map[]) == Some(Ruleset([], [], DefaultStagesField, [], [], Str(DefaultFallback)))
    ensures DecodeRuleset(WithDefaults(map[])) == DecodeRuleset(map[])
  {
  }

  /** The defaults `load_mappings` installs are the ones `transform_records` assumes for a
      missing key: loading a document changes nothing about the ruleset it denotes. */
  lemma DefaultsAgreeWithReader(doc: map<string, Value>)
    ensures DecodeRuleset(WithDefaults(doc)) == DecodeRuleset(doc)
  {
    var m := WithDefaults(doc);
    assert GetOr(m, "field_map", Obj([])) == GetOr(doc, "field_map", Obj([]));
    assert GetOr(m, "enums", Obj([])) == GetOr(doc, "enums", Obj([]));
    assert GetOr(m, "feeding_rules", List([])) == GetOr(doc, "feeding_rules", List([]));
    assert GetOr(m, "checklist_fallback", Str(DefaultFallback)) == GetOr(doc, "checklist_fallback", Str(DefaultFallback));
    if "stages_flags" !in doc {
      var fs := DefaultStagesFlags.fields;
      assert GetOr(m, "stages_flags", Obj([])) == Obj(fs);
      assert FieldGet(fs, "field") == Some(Str(DefaultStagesField));
      assert FieldGet(fs, "flags") == Some(Obj([]));
    } else {
      assert GetOr(m, "stages_flags", Obj([])) == GetOr(doc, "stages_flags", Obj([]));
    }
  }
}

=== FILE: sync.dfy ===
/** One run of the synchronizer end to end: filter by the ledger, transform, upload. */
module Sync {
  import opened Base
  import opened Json
  import opened Dates
  import opened Mappings
  import opened Transform
  import opened Ledger

  /** A record whose upload succeeded in one run is never eligible in a later run, and a
      record that was not eligible stays not eligible: the ledger only grows. */
  lemma NoReupload(records: seq<Record>, entries: map<string, Entry>, hives: Record, checklistsResponse: Record,
                   rules: Ruleset, calendarOk: Stamp -> bool, outcomes: seq<bool>, i: nat)
    requires var eligible := Eligible(records, entries.Keys);
      TransformAll(eligible, hives, checklistsResponse, rules, calendarOk).Ok? &&
      |outcomes| == |TransformAll(eligible, hives, checklistsResponse, rules, calendarOk).value|
    requires i < |outcomes| && outcomes[i]
    ensures var eligible := Eligible(records, entries.Keys);
      var out := TransformAll(eligible, hives, checklistsResponse, rules, calendarOk).value;
      var after := Uploaded(entries, out, outcomes);
      entries.Keys <= after.Keys &&
      forall r | r in Eligible(records, after.Keys) :: SourceId(r) != SourceId(eligible[i])
  {
    var eligible := Eligible(records, entries.Keys);
    var out := TransformAll(eligible, hives, checklistsResponse, rules, calendarOk).value;
    var after := Uploaded(entries, out, outcomes);
    OneTriplePerRecord(eligible, hives, checklistsResponse, rules, calendarOk);
    UploadedIds(entries, out, outcomes, out[i].sourceId);
    forall k | k in entries
      ensures k in after
    {
      UploadedIds(entries, out, outcomes, k);
    }
    forall r | r in Eligible(records, after.Keys)
      ensures SourceId(r) != SourceId(eligible[i])
    {
      var picked := EligibleExactly(records, after.Keys);
    }
  }

  /** A record whose post failed, and whose id no successful post of the run shares, is
      eligible again in the next run: the upload is retried. */
  lemma FailedPostRetried(records: seq<Record>, entries: map<string, Entry>, hives: Record, checklistsResponse: Record,
                          rules: Ruleset, calendarOk: Stamp -> bool, outcomes: seq<bool>, i: nat)
    requires var eligible := Eligible(records, entries.Keys);
      TransformAll(eligible, hives, checklistsResponse, rules, calendarOk).Ok? &&
      |outcomes| == |TransformAll(eligible, hives, checklistsResponse, rules, calendarOk).value|
    requires i < |outcomes| && !outcomes[i]
    requires var out := TransformAll(Eligible(records, entries.Keys), hives, checklistsResponse, rules, calendarOk).value;
      forall j | 0 <= j < |out| && outcomes[j] :: out[j].sourceId != out[i].sourceId
    ensures var eligible := Eligible(records, entries.Keys);
      var out := TransformAll(eligible, hives, checklistsResponse, rules, calendarOk).value;
      eligible[i] in Eligible(records, Uploaded(entries, out, outcomes).Keys)
  {
    var eligible := Eligible(records, entries.Keys);
    var out := TransformAll(eligible, hives, checklistsResponse, rules, calendarOk).value;
    OneTriplePerRecord(eligible, hives, checklistsResponse, rules, calendarOk);
    var picked := EligibleExactly(records, entries.Keys);
    assert eligible[i] == records[picked[i]];
    UploadedIds(entries, out, outcomes, out[i].sourceId);
    EligibleMembership(records, Uploaded(entries, out, outcomes).Keys, eligible[i]);
  }

  /** The three effects of one run on the ledger's ids, for every post at once: they only
      grow, every successful post is filtered out afterwards, and every failed post whose
      id no successful post shares is eligible again. */
  lemma RunEffects(records: seq<Record>, entries: map<string, Entry>, hives: Record, checklistsResponse: Record,
                   rules: Ruleset, calendarOk: Stamp -> bool, outcomes: seq<bool>)
    requires var eligible := Eligible(records, entries.Keys);
      TransformAll(eligible, hives, checklistsResponse, rules, calendarOk).Ok? &&
      |outcomes| == |TransformAll(eligible, hives, checklistsResponse, rules, calendarOk).value|
    ensures var eligible := Eligible(records, entries.Keys);
      var out := TransformAll(eligible, hives, checklistsResponse, rules, calendarOk).value;
      var after := Uploaded(entries, out, outcomes).Keys;
      && entries.Keys <= after
      && (forall i | 0 <= i < |out| && outcomes[i] ::
            forall r | r in Eligible(records, after) :: SourceId(r) != out[i].sourceId)
      && (forall i | 0 <= i < |out| && !outcomes[i]
            && (forall j | 0 <= j < |out| && outcomes[j] :: out[j].sourceId != out[i].sourceId) ::
            eligible[i] in Eligible(records, after))
  {
    var eligible := Eligible(records, entries.Keys);
    var out := TransformAll(eligible, hives, checklistsResponse, rules, calendarOk).value;
    var after := Uploaded(entries, out, outcomes).Keys;
    OneTriplePerRecord(eligible, hives, checklistsResponse, rules, calendarOk);
    forall i | 0 <= i < |out| && outcomes[i]
      ensures forall r | r in Eligible(records, after) :: SourceId(r) != out[i].sourceId
    {
      NoReupload(records, entries, hives, checklistsResponse, rules, calendarOk, outcomes, i);
    }
    forall i | 0 <= i < |out| && !outcomes[i]
        && (forall j | 0 <= j < |out| && outcomes[j] :: out[j].sourceId != out[i].sourceId)
      ensures eligible[i] in Eligible(records, after)
    {
      FailedPostRetried(records, entries, hives, checklistsResponse, rules, calendarOk, outcomes, i);
    }
    forall k | k in entries
      ensures k in after
    {
      UploadedIds(entries, out, outcomes, k);
    }
  }

  /** The outcome of each of the first `n` posts. */
  function Outcomes(n: nat, succeeds: nat -> bool): (outcomes: seq<bool>)
    ensures |outcomes| == n && forall i | 0 <= i < n :: outcomes[i] == succeeds(i)
  {
    seq(n, i requires 0 <= i => succeeds(i))
  }

  /** `load_mappings` followed by the reads `transform_records` makes of the result: the
      ruleset is the one the document denotes before its defaults were filled in. */
  method LoadRuleset(mappingsDoc: map<string, Value>) returns (rules: Ruleset)
    requires DecodeRuleset(mappingsDoc).Some?
    ensures DecodeRuleset(mappingsDoc) == Some(rules)
  {
    var mappings := LoadMappings(mappingsDoc);
    DefaultsAgreeWithReader(mappingsDoc);
    rules := DecodeRuleset(mappings).value;
  }

  /** The body of `main` after the data is in hand: `get_imported_ids`, the filter on it,
      `load_mappings`, `transform_records` with the ruleset the loaded document denotes, and
      `upload_records` when uploading is asked for. The ruleset is the one of the document
      as given, since loading does not change it.
      `succeeds(i)` is whether the post of the i-th triple succeeds. After the run, every
      record whose post succeeded is filtered out by the ledger's ids, which only grow;
      a call that raises leaves the ledger as it was. */
  method RunOnce(ledger: Ledger, records: seq<Record>, hives: Record, checklistsResponse: Record,
                 mappingsDoc: map<string, Value>, calendarOk: Stamp -> bool, upload: bool, succeeds: nat -> bool)
    returns (res: Result<seq<Transformed>>)
    requires DecodeRuleset(mappingsDoc).Some?
    modifies ledger
    ensures res == TransformAll(Eligible(records, old(ledger.ImportedIds())), hives, checklistsResponse,
                                DecodeRuleset(mappingsDoc).value, calendarOk)
    ensures old(ledger.ImportedIds()) <= ledger.ImportedIds()
    ensures res.Err? || !upload ==> ledger.entries == old(ledger.entries)
    ensures res.Ok? && upload ==> ledger.entries == Uploaded(old(ledger.entries), res.value, Outcomes(|res.value|, succeeds))
    ensures res.Ok? && upload ==> forall i | 0 <= i < |res.value| && succeeds(i) ::
      forall r | r in Eligible(records, ledger.ImportedIds()) :: SourceId(r) != res.value[i].sourceId
    ensures res.Ok? && upload ==> forall i | 0 <= i < |res.value| && !succeeds(i)
        && (forall j | 0 <= j < |res.value| && succeeds(j) :: res.value[j].sourceId != res.value[i].sourceId) ::
      Eligible(records, old(ledger.ImportedIds()))[i] in Eligible(records, ledger.ImportedIds())
  {
    var imported := ledger.ImportedIds();
    assert imported == ledger.entries.Keys;
    var eligible := Eligible(records, imported);
    var rules := LoadRuleset(mappingsDoc);
    res := TransformRecords(eligible, hives, checklistsResponse, rules, calendarOk);
    if res.Err? || !upload {
      return;
    }
    var outcomes := Outcomes(|res.value|, succeeds);
    ghost var before := ledger.entries;
    var _ := UploadRecords(ledger, res.value, outcomes);
    assert ledger.ImportedIds() == ledger.entries.Keys;
    RunEffects(records, before, hives, checklistsResponse, rules, calendarOk, outcomes);
  }
}

=== FILE: transform.dfy ===
/** `transform_records`: every eligible source record becomes a (payload, source id,
    checklist id) triple, or the whole call raises. */
module Transform {
  import opened Base
  import opened Json
  import opened Dates
  import opened Mappings
  import opened Lookup
  import opened Items

  /** The inspection sent to the target service. */
  datatype Payload = Payload(
    date: string,
    checklistId: Value,
    reminder: Value,
    notes: Value,
    hiveIds: seq<Value>,
    items: map<string, Value>)

  /** One element of the result: the payload, `str(r.get("id"))` and `str(checklist_id)`. */
  datatype Transformed = Transformed(payload: Payload, sourceId: string, checklistText: string)

  /** The source id under which a record is ledgered and filtered. */
  function SourceId(r: Record): (t: string)
    ensures "id" in r ==> t == PyStr(r["id"])
    ensures "id" !in r ==> t == "None"
  {
    PyStr(Get(r, "id"))
  }

  /** One iteration of the loop: items, hive ids, checklist and reminder, then the date;
      the first of these that raises aborts the record (and with it the call). */
  function TransformRecord(r: Record, hiveMap: map<Key, Value>, checklists: map<Key, Value>,
                           rules: Ruleset, calendarOk: Stamp -> bool): (res: Result<Transformed>)
    ensures res.Ok? ==> res.value.sourceId == SourceId(r)
    ensures res.Ok? ==> res.value.checklistText == PyStr(res.value.payload.checklistId)
    ensures res.Ok? ==> res.value.payload.notes == Get(r, "notes")
    ensures res.Ok? ==> ("actionDate" in r && r["actionDate"].Str?
      && NormalizeDate(r["actionDate"].text, calendarOk) == Ok(res.value.payload.date))
    ensures ActionDate(r, calendarOk).Err? ==> res.Err?
    ensures Items.Items(r, rules).Err? ==> res == Err(Items.Items(r, rules).error)
    ensures Items.Items(r, rules).Ok? && ResolveHives(r, hiveMap).Err? ==> res == Err(ResolveHives(r, hiveMap).error)
    ensures (Items.Items(r, rules).Ok? && ResolveHives(r, hiveMap).Ok?
             && ResolveChecklist(r, checklists, rules.checklistFallback).Err?) ==> res == Err(TypeError)
    ensures (Items.Items(r, rules).Ok? && ResolveHives(r, hiveMap).Ok?
             && ResolveChecklist(r, checklists, rules.checklistFallback).Ok? && ActionDate(r, calendarOk).Err?)
      ==> res == Err(ActionDate(r, calendarOk).error)
    ensures res.Ok? <==> (Items.Items(r, rules).Ok? && ResolveHives(r, hiveMap).Ok?
                          && ResolveChecklist(r, checklists, rules.checklistFallback).Ok? && ActionDate(r, calendarOk).Ok?)
    ensures res.Ok? ==> Items.Items(r, rules) == Ok(res.value.payload.items)
    ensures res.Ok? ==> ResolveHives(r, hiveMap) == Ok(res.value.payload.hiveIds)
    ensures res.Ok? ==>
      ResolveChecklist(r, checklists, rules.checklistFallback) == Ok((res.value.payload.checklistId, res.value.payload.reminder))
  {
    var items :- Items.Items(r, rules);
    var hiveIds :- ResolveHives(r, hiveMap);
    var checklist :- ResolveChecklist(r, checklists, rules.checklistFallback);
    var date :- ActionDate(r, calendarOk);
    var payload := Payload(date, checklist.0, checklist.1, Get(r, "notes"), hiveIds, items);
    Ok(Transformed(payload, SourceId(r), PyStr(checklist.0)))
  }

  /** The results of a loop that stops at the first error: all the values when every
      step succeeds, in order, one per step. */
  function Collect<T>(rs: seq<Result<T>>): (res: Result<seq<T>>)
    ensures res.Ok? <==> forall i | 0 <= i < |rs| :: rs[i].Ok?
    ensures res.Ok? ==> |res.value| == |rs| && forall i | 0 <= i < |rs| :: res.value[i] == rs[i].value
  {
    if rs == [] then Ok([])
    else
      var init := rs[..|rs| - 1];
      assert forall i | 0 <= i < |init| :: init[i] == rs[i];
      var out :- Collect(init);
      var t :- rs[|rs| - 1];
      Ok(out + [t])
  }

  /** The first step that fails gives the error of the whole loop. */
  lemma {:induction false} FirstFailureIsTheError<T>(rs: seq<Result<T>>, j: nat)
    requires j < |rs| && Collect(rs[..j]).Ok? && rs[j].Err?
    ensures Collect(rs) == Err(rs[j].error)
  {
    var init := rs[..|rs| - 1];
    if j < |rs| - 1 {
      assert init[..j] == rs[..j];
      assert init[j] == rs[j];
      FirstFailureIsTheError(init, j);
    } else {
      assert rs[..j] == init;
    }
  }

  /** One more successful step appends its value. */
  lemma CollectStep<T>(rs: seq<Result<T>>, i: nat)
    requires i < |rs| && Collect(rs[..i]).Ok? && rs[i].Ok?
    ensures Collect(rs[..i + 1]) == Ok(Collect(rs[..i]).value + [rs[i].value])
  {
    assert rs[..i + 1][..i] == rs[..i];
  }

  /** What each record's iteration of the loop gives. */
  function PerRecord(records: seq<Record>, hiveMap: map<Key, Value>, checklists: map<Key, Value>,
                     rules: Ruleset, calendarOk: Stamp -> bool): (rs: seq<Result<Transformed>>)
    ensures |rs| == |records|
    ensures forall i | 0 <= i < |records| :: rs[i] == TransformRecord(records[i], hiveMap, checklists, rules, calendarOk)
  {
    seq(|records|, i requires 0 <= i < |records| => TransformRecord(records[i], hiveMap, checklists, rules, calendarOk))
  }

  /** `transform_records(records, beep_hives, beep_checklists, mappings)`: the two lookup
      tables first, then the loop. */
  function TransformAll(records: seq<Record>, hives: Record, checklistsResponse: Record,
                        rules: Ruleset, calendarOk: Stamp -> bool): (res: Result<seq<Transformed>>)
  {
    var hiveMap :- BuildLookup(hives, "hives");
    var checklists :- BuildLookup(checklistsResponse, "checklists");
    Collect(PerRecord(records, hiveMap, checklists, rules, calendarOk))
  }

  /** Exactly one triple per input record, in input order, whose second component is the
      record's `str(id)`. */
  lemma OneTriplePerRecord(records: seq<Record>, hives: Record, checklistsResponse: Record,
                           rules: Ruleset, calendarOk: Stamp -> bool)
    requires TransformAll(records, hives, checklistsResponse, rules, calendarOk).Ok?
    ensures var out := TransformAll(records, hives, checklistsResponse, rules, calendarOk).value;
      |out| == |records| && forall i | 0 <= i < |records| :: out[i].sourceId == SourceId(records[i])
  {
  }

  /** The call succeeds exactly when both tables can be built and every record can be
      transformed with them. */
  lemma TransformAllSucceeds(records: seq<Record>, hives: Record, checklistsResponse: Record,
                             rules: Ruleset, calendarOk: Stamp -> bool)
    ensures TransformAll(records, hives, checklistsResponse, rules, calendarOk).Ok? <==>
      BuildLookup(hives, "hives").Ok? && BuildLookup(checklistsResponse, "checklists").Ok? &&
      forall i | 0 <= i < |records| ::
        TransformRecord(records[i], BuildLookup(hives, "hives").value,
                        BuildLookup(checklistsResponse, "checklists").value, rules, calendarOk).Ok?
  {
    var hiveMap := BuildLookup(hives, "hives");
    var checklists := BuildLookup(checklistsResponse, "checklists");
    if hiveMap.Ok? && checklists.Ok? {
      var rs := PerRecord(records, hiveMap.value, checklists.value, rules, calendarOk);
      assert Collect(rs).Ok? <==> forall i | 0 <= i < |rs| :: rs[i].Ok?;
    }
  }

  /** A loop of one successful step gives that step's value alone. */
  lemma CollectSingle<T>(rs: seq<Result<T>>)
    requires |rs| == 1 && rs[0].Ok?
    ensures Collect(rs) == Ok([rs[0].value])
  {
    assert rs[..0] == [];
    assert Collect(rs[..0]) == Ok([]);
    CollectStep(rs, 0);
    assert rs[..1] == rs;
    assert [] + [rs[0].value] == [rs[0].value];
  }

  /** A single record's call gives that record's triple alone. */
  lemma SingleRecord(r: Record, hives: Record, checklistsResponse: Record,
                     rules: Ruleset, calendarOk: Stamp -> bool, t: Transformed)
    requires BuildLookup(hives, "hives").Ok? && BuildLookup(checklistsResponse, "checklists").Ok?
    requires TransformRecord(r, BuildLookup(hives, "hives").value,
                             BuildLookup(checklistsResponse, "checklists").value, rules, calendarOk) == Ok(t)
    ensures TransformAll([r], hives, checklistsResponse, rules, calendarOk) == Ok([t])
  {
    var hiveMap := BuildLookup(hives, "hives").value;
    var checklists := BuildLookup(checklistsResponse, "checklists").value;
    var rs := PerRecord([r], hiveMap, checklists, rules, calendarOk);
    assert rs[0] == Ok(t);
    CollectSingle(rs);
  }

  /** A record without a usable `actionDate` (missing, not a string, or not of the shape
      `%Y-%m-%dT%H:%M:%S.%fZ`) aborts the whole call: there is no partial output. */
  lemma BadDateAbortsAll(records: seq<Record>, hives: Record, checklistsResponse: Record,
                         rules: Ruleset, calendarOk: Stamp -> bool, i: nat)
    requires i < |records| && ActionDate(records[i], calendarOk).Err?
    ensures TransformAll(records, hives, checklistsResponse, rules, calendarOk).Err?
  {
    var hiveMap := BuildLookup(hives, "hives");
    var checklists := BuildLookup(checklistsResponse, "checklists");
    if hiveMap.Ok? && checklists.Ok? {
      var rs := PerRecord(records, hiveMap.value, checklists.value, rules, calendarOk);
      assert !rs[i].Ok?;
    }
  }

  /** The payload date of a record whose `actionDate` has the canonical shape is that text
      with the fraction of a second removed. */
  lemma PayloadDateTruncates(r: Record, hiveMap: map<Key, Value>, checklists: map<Key, Value>,
                             rules: Ruleset, calendarOk: Stamp -> bool,
                             y: string, mo: string, d: string, h: string, mi: string, se: string, frac: string)
    requires CanonicalFields(y, mo, d, h, mi, se, frac)
    requires "actionDate" in r && r["actionDate"] == Str(WithFraction(y, mo, d, h, mi, se, frac))
    requires TransformRecord(r, hiveMap, checklists, rules, calendarOk).Ok?
    ensures TransformRecord(r, hiveMap, checklists, rules, calendarOk).value.payload.date == WithoutFraction(y, mo, d, h, mi, se)
  {
    CanonicalTruncates(y, mo, d, h, mi, se, frac, calendarOk);
  }

  /** A record whose type has no checklist and whose fallback is not known either gets a
      null checklist, which the triple carries as the text "None", and a reminder. */
  lemma UnknownChecklistIsNone(r: Record, hiveMap: map<Key, Value>, checklists: map<Key, Value>,
                               rules: Ruleset, calendarOk: Stamp -> bool)
    requires forall k | k in checklists :: Truthy(checklists[k])
    requires KeyOf(Get(r, "type")).Some? && KeyOf(Get(r, "type")).value !in checklists
    requires KeyOf(rules.checklistFallback).Some? && KeyOf(rules.checklistFallback).value !in checklists
    requires TransformRecord(r, hiveMap, checklists, rules, calendarOk).Ok?
    ensures var t := TransformRecord(r, hiveMap, checklists, rules, calendarOk).value;
      t.payload.checklistId == Null && t.checklistText == "None" && t.payload.reminder == Str(Reminder(r))
  {
    var t := TransformRecord(r, hiveMap, checklists, rules, calendarOk).value;
    ChecklistResolution(r, checklists, rules.checklistFallback);
    assert ResolveChecklist(r, checklists, rules.checklistFallback) == Ok((t.payload.checklistId, t.payload.reminder));
  }

  /** A record whose type has a checklist carries that checklist's id and no reminder. */
  lemma KnownChecklistHasNoReminder(r: Record, hiveMap: map<Key, Value>, checklists: map<Key, Value>,
                                    rules: Ruleset, calendarOk: Stamp -> bool)
    requires forall k | k in checklists :: Truthy(checklists[k])
    requires KeyOf(Get(r, "type")).Some? && KeyOf(Get(r, "type")).value in checklists
    requires TransformRecord(r, hiveMap, checklists, rules, calendarOk).Ok?
    ensures var t := TransformRecord(r, hiveMap, checklists, rules, calendarOk).value;
      t.payload.checklistId == checklists[KeyOf(Get(r, "type")).value] && t.payload.reminder == Null
  {
    var t := TransformRecord(r, hiveMap, checklists, rules, calendarOk).value;
    ChecklistResolution(r, checklists, rules.checklistFallback);
    assert ResolveChecklist(r, checklists, rules.checklistFallback) == Ok((t.payload.checklistId, t.payload.reminder));
  }

  /** The body of the loop for one record, filling `items` in place. */
  method TransformOne(r: Record, hiveMap: map<Key, Value>, checklists: map<Key, Value>,
                      rules: Ruleset, calendarOk: Stamp -> bool) returns (res: Result<Transformed>)
    ensures res == TransformRecord(r, hiveMap, checklists, rules, calendarOk)
  {
    var srcId := Get(r, "id");
    var items := AssembleItems(r, rules);
    if items.Err? {
      return Err(items.error);
    }
    var hiveIds := ResolveHives(r, hiveMap);
    if hiveIds.Err? {
      return Err(hiveIds.error);
    }
    var checklist := ResolveChecklist(r, checklists, rules.checklistFallback);
    if checklist.Err? {
      return Err(checklist.error);
    }
    var date := ActionDate(r, calendarOk);
    if date.Err? {
      return Err(date.error);
    }
    var payload := Payload(date.value, checklist.value.0, checklist.value.1, Get(r, "notes"), hiveIds.value, items.value);
    res := Ok(Transformed(payload, PyStr(srcId), PyStr(checklist.value.0)));
  }

  /** `transform_records`: builds the two tables, then appends one triple per record to
      `out`, stopping at the first record that raises. */
  method TransformRecords(records: seq<Record>, hives: Record, checklistsResponse: Record,
                          rules: Ruleset, calendarOk: Stamp -> bool) returns (res: Result<seq<Transformed>>)
    ensures res == TransformAll(records, hives, checklistsResponse, rules, calendarOk)
  {
    var hiveMap := BuildLookup(hives, "hives");
    if hiveMap.Err? {
      return Err(hiveMap.error);
    }
    var checklists := BuildLookup(checklistsResponse, "checklists");
    if checklists.Err? {
      return Err(checklists.error);
    }
    ghost var rs := PerRecord(records, hiveMap.value, checklists.value, rules, calendarOk);
    var out: seq<Transformed> := [];
    for i := 0 to |records|
      invariant Collect(rs[..i]) == Ok(out)
    {
      var t := TransformOne(records[i], hiveMap.value, checklists.value, rules, calendarOk);
      if t.Err? {
        FirstFailureIsTheError(rs, i);
        return Err(t.error);
      }
      CollectStep(rs, i);
      out := out + [t.value];
    }
    assert rs[..|rs|] == rs;
    res := Ok(out);
  }
}

=== FILE: transform_example.dfy ===
/** A worked instance of `transform_records`: a record that carries nothing but its
    `actionDate` becomes one triple under an empty mappings document. */
module TransformExample {
  import opened Base
  import opened Json
  import opened Dates
  import opened DateExample
  import opened Mappings
  import opened Lookup
  import opened Items
  import opened Transform

  /** The ruleset of an empty mappings document. */
  const EmptyRuleset: Ruleset := Ruleset([], [], DefaultStagesField, [], [], Str(DefaultFallback))

  /** A record with only a date: no id, no type, no hives. */
  const DateOnly: Record := map["actionDate" := Str("2024-05-11T12:34:56.789012Z")]

  /** With empty tables the date-only record gives one triple: its date without the
      fraction, no items, no hives, no checklist (so the text "None") and the reminder
      "Missing: None/None"; its source id is "None". */
  lemma DateOnlyRecordTransforms(calendarOk: Stamp -> bool) returns (t: Transformed)
    requires calendarOk(Stamp(2024, 5, 11, 12, 34, 56, "789012"))
    ensures TransformAll([DateOnly], map[], map[], EmptyRuleset, calendarOk) == Ok([t])
    ensures t.payload.date == "2024-05-11T12:34:56Z" && t.payload.items == map[] && t.payload.hiveIds == []
    ensures t.payload.checklistId == Null && t.payload.reminder == Str("Missing: None/None")
    ensures t.sourceId == "None" && t.checklistText == "None"
  {
    t := DateOnlyRecord(calendarOk);
    assert BuildLookup(map[], "hives") == Ok(map[]);
    assert BuildLookup(map[], "checklists") == Ok(map[]);
    SingleRecord(DateOnly, map[], map[], EmptyRuleset, calendarOk, t);
  }

  /** The triple of the date-only record. */
  lemma DateOnlyRecord(calendarOk: Stamp -> bool) returns (t: Transformed)
    requires calendarOk(Stamp(2024, 5, 11, 12, 34, 56, "789012"))
    ensures TransformRecord(DateOnly, map[], map[], EmptyRuleset, calendarOk) == Ok(t)
    ensures t.payload.date == "2024-05-11T12:34:56Z" && t.payload.items == map[] && t.payload.hiveIds == []
    ensures t.payload.checklistId == Null && t.payload.reminder == Str("Missing: None/None")
    ensures t.sourceId == "None" && t.checklistText == "None"
  {
    var r := DateOnly;
    ExampleNormalization(calendarOk);
    assert ActionDate(r, calendarOk) == Ok("2024-05-11T12:34:56Z");
    DateOnlyItems();
    DateOnlyChecklist();
    assert ResolveHives(r, map[]) == Ok([]);
    t := TransformRecord(r, map[], map[], EmptyRuleset, calendarOk).value;
  }

  /** No rule writes anything. */
  lemma DateOnlyItems()
    ensures Items.Items(DateOnly, EmptyRuleset) == Ok(map[])
  {
    var rules := EmptyRuleset;
    var f := FieldWrites(DateOnly, rules.fieldMap);
    var e := EnumWrites(DateOnly, rules.enums);
    var st := StageWrites(StageValue(DateOnly, rules.stagesField), rules.stageFlags);
    var fd := FeedingWrites(rules.feedingRules, Get(DateOnly, "feedBeesFoodType"), FoodOther(DateOnly));
    assert f == [] && e == Ok([]) && st == Ok([]) && fd == Ok([]);
    assert f + e.value + st.value + fd.value == [];
    assert ItemWrites(DateOnly, rules) == Ok([]);
  }

  /** Neither the missing type nor `TBD` has a checklist. */
  lemma DateOnlyChecklist()
    ensures ResolveChecklist(DateOnly, map[], Str(DefaultFallback)) == Ok((Null, Str("Missing: None/None")))
  {
    assert Get(DateOnly, "type") == Null && Get(DateOnly, "typeOther") == Null;
    assert Reminder(DateOnly) == "Missing: None/None";
  }
}
